=== FILE: README.md ===
# nss in Dafny

A model of the core of the nss artificial-life simulation. Bots, plants and signals live on an
optionally toroidal world. The world keeps an optional finite energy pool, and the bots are driven
by behaviour graphs.

## Files

The model follows the Python modules one by one:

- `ledger.dfy` (`Ledger`): the three energy operations of `World`. Each returns the new pool, the
  new bodies and whether the operation was accepted.
- `worldmodel.dfy` (`WorldModel`): the world as a heap.
  - `store` maps an identity to an entity's record, and the plant, bot and signal lists hold
    identities. So `list.remove`, `in` and `is` keep their Python meaning.
  - It also holds admission of new entities (`add_entity`), boundary wrapping, the aggregate
    list, the spatial index and the wrapped displacement of `get_unit_vector_to_point`.
- `entities.py`-era and `simulation.py`-era prototypes live in `prototype_entities.dfy`
  (`PrototypeEntities`) and `prototype.dfy` (`Prototype`).
- `entities.dfy` (`Entities`) and `entity_rules.dfy` (`EntityRules`): the records of
  sim_entities.py and their per-tick rules.
  - The base upkeep.
  - Plant growth, reproduction and ageing.
  - A bot's behaviour step, signal registration, old age and peak energy.
  - A signal's detection sweep.
- `tick.dfy` (`Tick`): `World.step`. The clock, the death record, the aggregate and the index come
  first. Then come three sweeps over snapshots of the plant, bot and signal lists.
- `intelligence.dfy` (`Intelligence`): the behaviour graph.
  - The decorator registry and node numbering.
  - Node execution and edge assignment.
  - Node rendering and graph stepping.
  - Nodes live in an arena, and edges are indices into it.
- `strategies.dfy` (`Strategies`): the deterministic helpers of behavior_functions.py, and the
  energy accounting of `create_clone`.
- `gui.dfy` (`Gui`): the arithmetic of the viewer.
  - Zoom, and the camera with its coordinate maps.
  - The font atlas and text layout.
  - Label positions, and the cells of the bot panel.
- `basics.dfy` (`Basics`): Python's float `%`, `//` and `%` on integers, `str()` of a natural
  number, `list.remove`, and the `Result` type that carries a raised exception.

## How the model handles randomness, behaviour functions and exceptions

- Randomness is a parameter:
  - a plant's reproduction roll and spore offset (`EntityRules.Spore`, indexed by tick and plant
    identity in `Tick.Spores`);
  - the clone offset of `create_clone`;
  - the prototypes' draws.
- Behaviour functions are an oracle. It returns the world after the function ran and the
  function's answer: `None`, truthy or falsy.
- A raised exception is an `Err` value.

The code is followed where it differs from the unit tests:
- tests/test_world.py:58-76 expects `add_entity` to debit the pool. world.py:97-115 does not, and
  neither does the model.
- `simulation.py`'s `add_plant` compares with `>`, so a limit of n admits n + 1 plants.

## Model

| member | source | states |
|---|---|---|
| Basics.FloorModRange | world.py:76-78 | Python's float `x % m` with a positive modulus always lands in [0, m) |
| Basics.FloorModUnique | world.py:112-114 | the wrapped coordinate is the unique representative of x minus a whole number of sides inside [0, m) |
| Basics.PyMod | gui.py:310-311 | `//` and `%` on integers satisfy a == b * (a // b) + a % b, with the remainder taking the sign of the divisor |
| Basics.RemoveFirst | world.py:69 | `list.remove(x)` of a member deletes exactly its first occurrence: the result is the part before that position followed by the part after it |
| Basics.RemoveFirstCount | world.py:69 | `list.remove(x)` takes away exactly one occurrence of x and leaves the count of every other value unchanged |
| Basics.ParseNatToString | entities.py:32-36 | the decimal text `str(n)` of a counter reads back as n |
| Basics.NatToStringInjective | entities.py:32-36 | different counters give different decimal texts |
| Ledger.Give | world.py:134-142 | a negative amount is refused with no change; otherwise accepted, and the entity gains the amount capped by a finite pool, pool + entity energy is conserved, and a non-negative pool stays non-negative; with no pool the entity gains exactly the amount |
| Ledger.Drain | world.py:144-154 | a negative amount is refused with no change; draining at least the entity's energy leaves it at 0 and dead; otherwise energy drops by the amount and the dead flag is kept; a finite pool gains exactly what was removed; only energy and death change |
| Ledger.Transfer | world.py:156-164 | refused with nothing changed if either party is dead; otherwise donor + recipient energy is conserved, the recipient gets min(amount, donor energy), the donor dies iff it held no more than the amount (a zero transfer kills a donor with zero energy), and the pool is not involved |
| Ledger.TransferToSelf | world.py:156-164 | a transfer from an entity to itself leaves its energy unchanged but still kills it when its energy is at most the amount |
| Entities.NewBody | sim_entities.py:7-16 | A new entity stands at the given (x, y) with energy 0, alive, at age 0, with no children and no birthday. |
| Entities.NewPlant | sim_entities.py:66-80 | a new plant is a newborn plant with max age 1000, max energy 200, growth 2, investment 100 and reproduction chance 2 |
| Entities.NewBot | sim_entities.py:31-45 | a new bot is a newborn bot carrying the given graph and generation, aiming at its start point, with no signal, peak 0, investment 200, max age 2000 and speed 1 |
| Entities.NewSignal | sim_entities.py:111-124 | a new signal remembers its owner and where the owner stood, detects nothing, and has diameter 8 and speed 0 |
| Entities.NewStaticSignal | sim_entities.py:143-146 | a static signal has diameter 4 and speed 0 |
| Entities.NewMobileSignal | sim_entities.py:153-158 | a mobile signal has speed 2, the inherited diameter 8 and a fixed per-tick displacement |
| WorldModel.NewWorld | world.py:31-49 | a new world is at tick 0 with no entities, no index, no selection, and the initial pool remembered |
| WorldModel.Wrap | world.py:76-78 | wrapping puts the position inside [0, width) × [0, height) and changes nothing but the position |
| WorldModel.WrapKeepsInside | world.py:76-78 | a position already inside the boundaries is not moved |
| WorldModel.WrapIdempotent | world.py:112-114 | wrapping twice equals wrapping once |
| WorldModel.AddEntity | world.py:97-115 | accepted iff energy ≥ 0 and (a signal, or a plant or bot whose cap admits one more); on refusal nothing changes; on acceptance the entity joins exactly its own list, its birthday is the current tick, its position is wrapped, and the pool is not touched |
| WorldModel.PlantCapIsExact | world.py:81-85 | under a positive plant cap n, a plant is admitted iff fewer than n plants are listed |
| WorldModel.ZeroCapIsUnlimited | world.py:81-91 | a cap of None or 0 never refuses an entity with non-negative energy |
| WorldModel.Aggregate | world.py:117-120 | the aggregate is exactly plants, then bots, then signals, and contains exactly the listed entities; nothing else changes |
| WorldModel.AggregateForgets | world.py:117-120 | the aggregate does not depend on the previous aggregate |
| WorldModel.BuildIndex | world.py:122-132 | a non-empty aggregate is indexed position by position at the entities' current coordinates; an empty aggregate leaves the world, including any stale index, unchanged |
| WorldModel.WrapAxis | world.py:168-176 | the wrapped difference is the raw one, or the raw one shifted by exactly one side either way |
| WorldModel.WrapAxisWithinHalf | world.py:168-176 | for two coordinates inside the torus, the wrapped difference lies in [-side/2, side/2] |
| WorldModel.WrapAxisShortest | world.py:168-176 | the wrapped difference is the shortest of all differences that agree with it modulo the side |
| WorldModel.DisplacementAcrossEdge | world.py:166-176 | in a 10 by 10 world, going from (5, 8) to (5, 0) is two steps forward along y, across the edge |
| EntityRules.BaseStep | sim_entities.py:18-22 | upkeep makes the entity one year older and drains min(1, energy) into a finite pool (pool + energy conserved); the entity is dead afterwards iff it was dead or held less than 2; nothing else changes |
| EntityRules.BaseStepDeathRule | sim_entities.py:18-22 | after upkeep, energy below 1 implies dead, and a dead entity stays dead |
| EntityRules.Grow | sim_entities.py:84-85 | a plant at or above its maximum does not grow; below it, it gains its growth rate, capped by a finite pool, which pays for it |
| EntityRules.Spawn | sim_entities.py:97-104 | the child is a new plant at the parent's position plus the offset, funded by a transfer that conserves parent + child energy; the parent's child count rises by exactly one |
| EntityRules.CheckReproduction | sim_entities.py:92-105 | nothing happens unless energy ≥ max − investment and the roll wins; then the funded child is listed only if the plant cap admits it, and otherwise stays funded but unlisted |
| EntityRules.RefusedChildLeaksEnergy | sim_entities.py:103-105 | with a full plant list, a reproducing parent loses 100 units that neither the listed plants nor the pool hold afterwards |
| EntityRules.PlantStep | sim_entities.py:82-90 | a plant step ages the plant by one, never moves it, keeps it dead once dead, and kills it when it was older than its maximum age; without reproduction the only energy change is growth (no upkeep) |
| EntityRules.PlantOnlyDiesByAgeOrSpawning | sim_entities.py:82-90 | a live plant within its age that does not reproduce is alive after its step |
| EntityRules.Merge | sim_entities.py:52 | a behaviour function's effect is taken over without losing any stored entity or changing its class; the clock, caps, bounds and selection are kept |
| EntityRules.MergeUnchanged | sim_entities.py:52 | a behaviour function that changes nothing leaves the world as it was |
| EntityRules.BehaviorPhase | sim_entities.py:47-52 | a bot without a graph raises; otherwise the step fails iff the graph step (after dropping a dead signal) fails, and the bot keeps a graph with the same nodes whose cursor moved along an edge of the old current node |
| EntityRules.RegisterSignal | sim_entities.py:53-55 | a signal the world does not list yet is listed once, unless its energy is negative; nothing else changes |
| EntityRules.BotUpkeep | sim_entities.py:53-60 | after the behaviour, a bot pays upkeep, dies iff it was dead, held less than 2 or reached its maximum age, and its peak energy becomes the maximum of the old peak and its new energy |
| EntityRules.BotStep | sim_entities.py:47-60 | a bot step fails exactly when its behaviour step fails; otherwise the peak never drops and covers the energy, the age rises by one, and a bot at its maximum age is dead |
| EntityRules.Detected | sim_entities.py:127-134 | the detection list has no duplicates and holds exactly the entities sighted within the radius |
| EntityRules.Sense | sim_entities.py:126-134 | a mobile signal moves by its displacement, and the new detection list has no duplicates and holds exactly the indexed entities within diameter // 2 of the new position, or nothing without an index |
| EntityRules.SignalStep | sim_entities.py:126-163 | a mobile signal first moves by its displacement; the detection list is replaced by the duplicate-free set of entities within diameter // 2 of the new position (empty with no index); then upkeep; no list changes |
| Tick.Bury | world.py:63-73 | a dead entity is removed from its own list only, its positive energy goes back to a finite pool, and a dead bot is recorded as recently dead and deselected if selected |
| Tick.StepEntity | world.py:79 | only a bot's step can raise, and stepping never changes the clock, caps, bounds, death record or selection |
| Tick.ProcessOne | world.py:62-79 | a dead entity is buried; a live one is wrapped and then stepped; the death record grows by at most the entity itself, and a live selection stays live |
| Tick.Sweep | world.py:60-79 | a sweep over a snapshot never removes stored entities, never changes an entity's class and keeps the world's settings |
| Tick.SweepRecord | world.py:60-73 | a sweep only appends to the death record, and only bots of its snapshot; it never leaves the selection on a recently dead bot |
| Tick.BuryHead | world.py:69 | burying the head of a list removes exactly the head |
| Tick.SweepBuriesDeadHead | world.py:60-73 | a sweep whose first entity is dead buries it and goes on with the rest of the snapshot |
| Tick.DeadListIsEmptied | world.py:60-73 | sweeping a list of dead entities never raises and leaves that list empty, the store and the other lists as they were, and only the list's bots in the death record |
| Tick.PoolAfter | world.py:67-68 | refunding entities one by one leaves an infinite pool infinite and adds exactly their positive energies to a finite one |
| Tick.BuryAll | world.py:63-69 | burying a snapshot one by one keeps the store and leaves the pool as refunding each entity of the snapshot in turn would |
| Tick.DeadSweepBuriesAll | world.py:60-73 | a sweep over dead entities never raises and is exactly the burial of each in turn, so their positive energy goes to a finite pool |
| Tick.Begin | world.py:51-58 | a tick starts with the clock one ahead, an empty death record, the aggregate of the current lists and an index as large as the aggregate |
| Tick.Step | world.py:51-79 | after a tick the clock is one ahead, the aggregate is the lists as they stood when the tick began, the caps and bounds are unchanged, no entity leaves the store, and the death record holds only bots |
| Tick.StepSelectionAlive | world.py:70-73 | after a tick the selected bot is never one that died during it |
| Tick.HeldRemoveFirst | world.py:69 | removing one listed entity removes exactly its energy from the list's total |
| Tick.BuryConserves | world.py:67-69 | burying an entity with non-negative energy conserves pool + energy of the swept list |
| Tick.LivePlantStaysInside | world.py:74-79 | a live plant's turn never raises and leaves it inside the boundaries |
| Tick.PlantTurnKeepsNewborns | world.py:61-79 | one plant's turn creates only plants of age 0 and leaves earlier newborns untouched plants of age 0 |
| Tick.NewbornsAreNotStepped | world.py:60-61 | a plant sweep never steps an entity created during it: each one is still a plant of age 0 when the sweep ends |
| Intelligence.RegisterStatement | intelligence.py:13-19 | `@statement` appends the function to the statement list and leaves the conditional list alone |
| Intelligence.RegisterConditional | intelligence.py:22-28 | `@conditional` appends the function to the conditional list and leaves the statement list alone |
| Intelligence.NewNode | intelligence.py:34-37 | a new node is numbered by the incremented class-wide count and starts with no edges |
| Intelligence.NewNodes | intelligence.py:34-37 | nodes built one after another get strictly increasing numbers, all above the previous count |
| Intelligence.Execute | intelligence.py:51-79 | the function runs once; a statement always returns its next node; a conditional raises iff the function returns None, and otherwise returns its true node on a truthy answer and its false node on a falsy one |
| Intelligence.Step | intelligence.py:98-101 | stepping raises without a current node; otherwise it fails iff the node raises, moves the cursor to the edge the node returned, and never changes the node list |
| Intelligence.RunNeverFails | intelligence.py:98-101 | a graph with every edge set, started on a node, whose conditionals never answer None, can be stepped any number of times without failing or losing nodes |
| Intelligence.UnsetEdgeFailsNextStep | intelligence.py:98-101 | a step that lands on an unset edge makes the next step fail |
| Intelligence.AssignEdge | intelligence.py:48-49 | `assign_edge` sets the next node of one statement and nothing else |
| Intelligence.AssignEdges | intelligence.py:69-71 | `assign_edges` sets exactly the true and false nodes of one conditional and nothing else |
| Intelligence.AssignedEdgeIsFollowed | intelligence.py:48-53 | after `assign_edge`, a step from that statement lands on the assigned node whatever the function answers |
| Intelligence.AssignedBranchesAreFollowed | intelligence.py:69-79 | after `assign_edges`, a truthy answer leads to the assigned true node and a falsy one to the false node |
| Intelligence.ReturnTreeCopy | intelligence.py:103-104 | the copy has the same nodes, numbers, functions, edges and cursor as the original |
| Intelligence.Render | intelligence.py:55-90 | a statement renders as its own `<number>_<name>`, `" -> "` and the successor's label or `None`; a conditional as its label, `" ? "`, the true branch, `" : "` and the false branch, `None` standing for an unset edge |
| Intelligence.RenderNamesSuccessor | intelligence.py:55-60 | the successor's number reads back from the digits after a statement's `" -> "`, and an unset edge reads `None` |
| Intelligence.RenderStartsWithNumber | intelligence.py:55-90 | the node number can be read back from the leading digits of its rendering |
| Intelligence.DistinctNumbersRenderDistinctly | intelligence.py:55-90 | nodes with different numbers never render to the same text |
| Strategies.FirstOfKind | behavior_functions.py:16-18 | a result sits at a position holding a wanted entity with no wanted entity before it; nothing is returned only when no detected entity is wanted |
| Strategies.FirstOfKindIsFirst | behavior_functions.py:16-18 | whichever position holds the first wanted entity, the scan returns the entity at that position |
| Strategies.CheckDetectedEntityType | behavior_functions.py:14-19 | nothing without a signal or with a signal out of energy; otherwise something iff some detected entity is of the class and not the excluded one, and then the one at the first such position |
| Strategies.IncrementMessageType | behavior_functions.py:187-190 | the message type counts up and falls back to 0 once past 2 |
| Strategies.MessageTypeCycles | behavior_functions.py:187-190 | starting in {0, 1, 2}, the counter stays there, always changes, and returns after three increments |
| Strategies.CheckMessageType | behavior_functions.py:192-194 | true iff the bot's signal has energy left, it detected a signal other than itself, and the first such signal carries the wanted message type |
| Strategies.CreateClone | behavior_functions.py:28-44 | a bot without energy changes nothing; otherwise exactly one new entity, the next fresh identity, is created |
| Strategies.CloneInheritsBehavior | behavior_functions.py:33-42 | the clone is a bot of the next generation with the parent's behaviour, the parent's child count rises by exactly one, and the plant and signal lists are untouched |
| Strategies.CloneIsListedIfAdmitted | behavior_functions.py:44 | the clone joins the end of the bot list iff its energy is non-negative and the bot cap admits one more; otherwise the bot list is unchanged |
| Strategies.CloneLedger | behavior_functions.py:30-41 | the tax goes into a finite pool and the investment moves from parent to child, so pool + parent + child is conserved; a parent with at most 10 dies of the tax and funds nothing; otherwise the child gets the investment capped by what is left |
| Strategies.Fund | behavior_functions.py:37-42 | the child is created with the parent's behaviour and one more generation, funded from the parent with parent + child energy conserved, and the parent's child count rises by one |
| Strategies.ReproducePossibleCanStillKill | behavior_functions.py:22-44 | a bot that passes `reproduce_possible` with 5 units to spare still dies while cloning, because the tax comes first |
| Prototype.AssignNodeType | simulation.py:49-55 | a node type is found iff the function is registered either way; it is a conditional only if it is not a statement; an unregistered function raises LookupError |
| Prototype.StatementsTakePriority | simulation.py:49-55 | a function registered both ways is a statement in either decorator order; one registered only as a conditional is a conditional; nothing is found in the empty registry |
| Prototype.NewPNode | simulation.py:33-38 | constructing a node fails iff its function is unregistered; a new node has no edges and is a statement iff its function is a registered statement |
| Prototype.PExecute | simulation.py:40-47 | a statement returns its next node; a conditional returns its true node only on a true answer and its false node otherwise, including on None |
| Prototype.NodeAgreesWithGraphNode | simulation.py:40-47 | the prototype node agrees with the later graph node except when a conditional answers None: there the prototype takes the false branch and the later node raises |
| Prototype.TreeExecute | simulation.py:63-66 | executing a tree raises iff there is no current node; otherwise the cursor moves to the node the current node returns and the nodes are kept |
| Prototype.TreeAgreesWithGraph | simulation.py:63-66 | while no conditional answers None, stepping a prototype tree is stepping the corresponding later graph |
| Prototype.CheckReproduction | simulation.py:132-144 | a baby exists iff energy ≥ 180 and the roll is below 2; the parent then loses exactly the 20 the baby holds, and the baby is alive and of age 0 |
| Prototype.PlantExecute | simulation.py:122-130 | a plant grows by 1 only below 200, dies iff dead already or older than 1000, ages by one without moving, shares its grown energy exactly with its baby, and a plant below 201 stays below 201 |
| Prototype.AddPlant | simulation.py:172-176 | refused with False iff a truthy limit is already exceeded; otherwise the plant is appended and the call returns None |
| Prototype.AddPlantOverfills | simulation.py:172-176 | a world holding exactly its limit of plants still accepts one more and only then refuses |
| Prototype.SweepPlants | simulation.py:154-159 | the plant pass only extends the executed survivors and the accepted babies, removes at most one plant and accepts at most one baby per executed plant, and under a truthy limit leaves at most max(limit + 1, plants listed) |
| Prototype.SweepKeepsOnlyLive | simulation.py:156-159 | every plant the pass keeps after executing it is alive, and every baby it accepts is alive, of age 0 and holds the investment of 20 |
| Prototype.BarrenPassKeepsOrder | simulation.py:156-159 | when no roll wins, the pass keeps the executed survivors in snapshot order and accepts no baby |
| Prototype.BotExecute | simulation.py:97-100 | a prototype bot always raises: ValueError without a tree, TypeError with one |
| Prototype.WorldExecute | simulation.py:154-164 | after the plant pass every listed plant is alive, there are at most twice as many, and a list within limit + 1 stays within it; the call then raises iff the world has a bot, with the first bot's error, and the bots and limits are untouched |
| PrototypeEntities.Name | entities.py:32-36 | every construction advances the counter; an explicit name is kept, and a default name is the prefix followed by digits |
| PrototypeEntities.DefaultNamesCarryTheirCount | entities.py:32-36 | a default name's digits read back as the new count, so different counts give different default names |
| PrototypeEntities.NewEBot | entities.py:25-36 | a new bot stands at the given x and y, is alive, has the given energy and no target, and is named from the bot counter |
| PrototypeEntities.BotStep | entities.py:38-44 | without a graph the step raises; otherwise it fails iff the graph step fails, then the bot loses exactly one unit and is dead iff it was dead or has less than 1 left |
| PrototypeEntities.UpkeepDeathThreshold | entities.py:41-51 | a bot whose behaviour leaves its energy alone dies in its step iff it held less than 2, so a bot that can reproduce survives |
| PrototypeEntities.NewEPlant | entities.py:104-118 | a new plant is alive, of age 0, with the given position and energy, named from the plant counter |
| PrototypeEntities.CheckReproduction | entities.py:130-142 | a baby exists iff energy ≥ 30 and the roll is below 2; the parent then loses exactly the 20 the baby holds, the baby stands at the drawn offset from the parent, and the plant counter advances |
| PrototypeEntities.PlantStep | entities.py:120-128 | a plant grows by 1 only below 50, dies iff dead already or older than 1000, ages by one, and a plant below 51 stays below 51 |
| PrototypeEntities.StepAllConserves | entities.py:120-142 | stepping every plant once creates no energy beyond growth: the plants and their babies together hold at least the energy before and at most that plus one unit per plant |
| Gui.NewView | gui.py:26-32 | a new view has its camera at the origin and zoom 1 |
| Gui.ZoomIn | gui.py:35-36 | zooming in doubles the zoom and changes nothing else |
| Gui.ZoomOut | gui.py:38-40 | zooming out halves the zoom rounding down when it is at least 2, and does nothing at 1 |
| Gui.ZoomRoundTrip | gui.py:35-40 | zooming out undoes zooming in; powers of two stay powers of two; zooming in undoes zooming out above zoom 1 |
| Gui.CoordinateMapsAreInverse | gui.py:139-143 | `surface_point_to_world` and `world_point_to_surface` are inverse to each other both ways |
| Gui.PointIsVisible | gui.py:42-45 | a point is visible iff its surface image lies in [0, width) × [0, height) |
| Gui.CenterCameraOnPoint | gui.py:132-137 | centring moves only the camera |
| Gui.CenteredPointIsInTheMiddle | gui.py:132-137 | after centring on a point, it maps to (width/2, height/2), and it is visible iff the view has positive width and height |
| Gui.GlyphRect | gui.py:308-314 | the atlas cell of code i has the character's size and, for a positive row length, sits at column (i − 32) mod n and row (i − 32) div n |
| Gui.Glyphs | gui.py:307-314 | the character map holds exactly the codes 32 to 127, each with its atlas cell |
| Gui.GlyphCodeRoundTrip | gui.py:308-314 | the code can be read back from its atlas cell whenever cells have extent |
| Gui.GlyphsAreDistinct | gui.py:308-314 | distinct codes get distinct atlas cells |
| Gui.NewWriter | gui.py:301-314 | building a writer fails with a division by zero iff the row length is 0, and otherwise keeps the given settings |
| Gui.SourceOf | gui.py:320-323 | a character uses its own atlas cell when its code is 32 to 127 and the cell of code 127 otherwise |
| Gui.TextLayout | gui.py:316-325 | the text surface is one pixel per character wider than the characters, and character i is copied i cells from the left from its atlas cell |
| Gui.LayoutOfConcatenation | gui.py:316-325 | laying out a + b is laying out a, followed by b shifted right by a's width |
| Gui.PositionLabels | gui.py:154-162 | the header comes first at (x, x), then label k at (x, (k + 1) · 22 · scale), one entry per label plus the header |
| Gui.LabelsRunDownOneColumn | gui.py:208-217 | the bot panel's labels run down one column strictly top to bottom, in order, the header first |
| Gui.Truncate | gui.py:244 | Python's `int()` on a float rounds toward zero |
| Gui.PollData | gui.py:241-250 | nine dashes iff nothing is selected; a selected non-bot, a maximum age of 0 and a bot without a graph raise; otherwise one cell per label, holding in order the identity, the position truncated toward zero, energy, peak energy, generation, birthday, age with its truncated percentage of the maximum age, children and graph size |
| Gui.EveryBotLabelHasData | gui.py:219-247 | the polled data covers exactly the labels after the header, and at the maximum age the age share is 100 |

The predicates `Strategies.ReproducePossible`, `Strategies.SignalExists`,
`Strategies.VeryLowEnergy` and `PrototypeEntities.CanIReproduce` are the source's tests written out
(behavior_functions.py:22-25, 53-56, 175-178; entities.py:48-51). They are used by the members
above.

## Left out

- Everything drawn on screen: pygame surfaces, pixel arrays, colours, font image loading, the
  render methods and the graph panel. They are display, not simulation.
- `WorldWatcher` (world.py:215-426): metrics, CSV files, plots, graphviz and networkx output. This
  is file I/O and plotting.
- `InfoPanel._poll_data` and the world's `time` field. They read the wall clock and the frame
  rate.
- The kd-tree (world.py:122-132 and `query_ball_point`). The index is a list of sightings, and
  detection is a radius filter over it.
- EntityRules.Detected: returns hits in index order. The source returns them in scipy's order, which
  is not part of its contract.
- The unit-vector normalisation by `sqrt` (world.py:177-181). Cosine and sine for a mobile signal's
  displacement and for spore placement are also left out. The displacement and the offsets are
  parameters instead. These are floating-point transcendental functions.
- All random draws (`random`, `numpy.random`). They are parameters.
- `populate` (world.py:183-212). It is random and calls a graph generator that does not exist with
  that signature.
- Graph mutation, `set_entry_node` and random graph generation. They are absent from
  intelligence.py (106-109).
- Strategies.CreateClone: as written, the source raises `AttributeError` at behavior_functions.py:40
  after the tax, and already at :36 when the mutation draw is below 40, because `BehaviorGraph`
  (intelligence.py:93-109) defines neither `set_entry_node` nor `mutate_behavior`. So the transfer
  (:41), the child count (:42) and `add_entity` (:44) never run in the program. The model gives
  the accounting the code evidently intends instead of an `Err`: the tax, then a child whose
  behaviour is a plain copy of the parent's, funded, counted and offered to the world. A bot
  without a graph would raise in `return_tree_copy`; only a bot running its graph calls
  `create_clone`, so the model copies the missing graph as missing.
- The movement, eating, targeting and signal-launching behaviour functions of
  behavior_functions.py. They rely on trigonometry, randomness and `sqrt` distances.
- The registration decorators with arguments in behavior_functions.py. They do not match the
  one-argument decorators of intelligence.py.
- extra_nodes.py: an older copy of the strategies that passes arguments the current constructors do
  not accept.
- The behaviour functions of entities.py's `Bot`: `create_clone`, `target_food`,
  `move_towards_target`, `am_i_near_target` and `eat_nearby_food`. They use `sqrt`, randomness and
  a world class that file does not define. The world an entities.py plant offers its baby to is
  left out for the same reason: `PrototypeEntities.PlantStep` returns the baby.
- `simulation.py`'s `add_bot` (166-170). Nothing calls it. Its guard `len(self.bot_limit)` is only
  evaluated for a truthy limit, and then raises `TypeError`. With no limit (the default, line 148)
  or a limit of 0 the bot is appended.
- `simulation.py`'s bot naming counter. It follows the same rule as entities.py, which
  `PrototypeEntities.Name` models.
- Prototype.WorldExecute: models removal by position in the snapshot rather than by Python object
  identity. The two agree because prototype plants are distinct objects.
- Gui.PollData: the name cell holds the bot's identity, because entity names are not part of the main
  model. The position, birthday and age cells hold values, not their string formatting.
- Gui.EveryBotLabelHasData: states the 100 percent share only for a positive maximum age. A maximum
  age of 0 raises instead.
- EntityRules.RegisterSignal: takes the signal's membership test by identity. The source's `in`
  compares objects, and entities do not override equality.
- Entity names, colours and the `world` back-reference. They play no part in the rules.
- Floating-point rounding. Energies and coordinates are mathematical reals.
- Partial effects of an exception. A raised exception ends the tick with an error, and the
  partial state reached before it is discarded.
- `message_signal_type`. No class in the source defines this attribute. `_check_message_type`
  (behavior_functions.py:194) reads it on the detected `Signal`, so the source raises
  `AttributeError` whenever a foreign signal is found. `increment_message_type`
  (behavior_functions.py:188) reads it on the bot, so it always raises. The model gives each entity's
  message type as the parameter `messageOf` of `Strategies.CheckMessageType`, and
  `Strategies.IncrementMessageType` takes the count as a plain integer.
- Entities.NewBody: does not model the name `'entity'` or the `world` back-reference that
  `BaseSimulationEntity.__init__` sets (sim_entities.py:8-9). Names are display text, and the world
  holds its entities instead of each entity pointing at it.
- Basics.RemoveFirst: leaves a list without the value unchanged, where Python's `list.remove`
  raises `ValueError`. Tick.Bury inherits this. It can only happen when a behaviour function drops a
  listed entity from its list, and no behaviour function of the source does.
- Tick.Step: does not say which list each recorded bot came from, only that every entry is a bot.
- WorldModel.Extent: sides are positive. The source also accepts a side of 0, which raises
  `ZeroDivisionError` in the wrap (world.py:77), and a negative side, which wraps into (side, 0].
- Tick.Step: states no whole-tick energy conservation. A child refused by a full plant or bot list
  keeps the energy it was given, so that energy leaves the ledger
  (`EntityRules.RefusedChildLeaksEnergy`).

=== FILE: basics.dfy ===
/** Shared vocabulary of the model: optional values, the errors the source raises, Python's
    floor modulo on reals and integers, decimal rendering of naturals, and the list operations
    Python's `list.remove` and `in` perform. */
module Basics {

  /** Python's `None` or a value. */
  datatype Option<+T> = None | Some(value: T)

  /** The exceptions the modelled code raises, one case per cause. */
  datatype Error =
    | MissingBehavior          // ValueError: a bot stepped without a behaviour graph
    | NoCurrentNode            // ValueError: a behaviour graph stepped with no current node
    | ConditionalReturnedNone  // ValueError: a conditional's function returned None
    | Unregistered             // LookupError: a function in neither registry list
    | MissingArgument          // TypeError: a call that omits a required argument
    | DivisionByZero           // ZeroDivisionError
    | NoAttribute              // AttributeError: an attribute looked up on None

  /** The outcome of an operation that can raise. */
  datatype Result<+T> = Ok(value: T) | Err(error: Error) {
    predicate IsFailure() {
      Err?
    }

    function PropagateFailure<U>(): Result<U>
      requires Err?
    {
      Err(error)
    }

    function Extract(): T
      requires Ok?
    {
      value
    }
  }

  function Min(a: real, b: real): (m: real)
    ensures m <= a && m <= b
    ensures m == a || m == b
  {
    if a <= b then a else b
  }

  function Max(a: real, b: real): (m: real)
    ensures m >= a && m >= b
    ensures m == a || m == b
  {
    if a >= b then a else b
  }

  /** Python's `x % m` on floats for a positive modulus: `x - m * floor(x / m)`. */
  function FloorMod(x: real, m: real): (r: real)
    requires m > 0.0
  {
    x - m * ((x / m).Floor as real)
  }

  lemma FloorModRange(x: real, m: real)
    requires m > 0.0
    ensures 0.0 <= FloorMod(x, m) < m
  {
    var q := x / m;
    var f := q.Floor as real;
    var t := q - f;
    assert 0.0 <= t < 1.0;
    assert x == m * q;
    assert m * f + m * t == m * q;
    MulBelow(m, t);
    assert FloorMod(x, m) == m * t;
  }

  lemma MulBelow(m: real, t: real)
    requires m > 0.0 && 0.0 <= t < 1.0
    ensures 0.0 <= m * t < m
  {
    assert m * t < m * 1.0;
  }

  /** If `x - k * m` already lies in `[0, m)` then it is the floor modulo: the wrapped value is the
      unique representative of `x` in the window. */
  lemma FloorModUnique(x: real, m: real, k: int)
    requires m > 0.0
    requires 0.0 <= x - (k as real) * m < m
    ensures FloorMod(x, m) == x - (k as real) * m
  {
    var q := x / m;
    var kr := k as real;
    var p := kr * m;
    assert x == m * q;
    assert p <= x < p + m;
    DivideBounds(m, x, kr);
    assert q.Floor == k;
  }

  lemma DivideBounds(m: real, x: real, k: real)
    requires m > 0.0
    requires k * m <= x < k * m + m
    ensures k <= x / m < k + 1.0
  {
    var q := x / m;
    assert q - k == (x - k * m) / m;
    var t := k + 1.0 - q;
    assert x == m * q;
    assert m * t == m * k + m - m * q;
    assert k * m + m - x == m * t;
    CancelFactor(m, t);
    PositiveQuotient(x - k * m, m);
    PositiveQuotient(k * m + m - x, m);
  }

  lemma CancelFactor(m: real, t: real)
    requires m > 0.0
    ensures (m * t) / m == t
  {
  }

  lemma PositiveQuotient(a: real, m: real)
    requires m > 0.0 && a >= 0.0
    ensures a / m >= 0.0
    ensures a > 0.0 ==> a / m > 0.0
  {
  }

  /** Euclidean division undoes multiplication by a positive factor. */
  lemma DivCancel(c: int, k: int)
    requires k > 0
    ensures (c * k) / k == c
  {
    var q, r := (c * k) / k, (c * k) % k;
    assert k * (c - q) == r;
    MulBounds(c - q, k);
  }

  /** A nonzero multiple of a positive factor is at least that factor away from 0. */
  lemma MulBounds(d: int, k: int)
    requires k > 0
    ensures d >= 1 ==> k * d >= k
    ensures d <= -1 ==> k * d <= -k
  {
  }

  lemma FloorModIdentity(x: real, m: real)
    requires m > 0.0 && 0.0 <= x < m
    ensures FloorMod(x, m) == x
  {
    FloorModUnique(x, m, 0);
  }

  /** Python's `a // b` on integers (rounds toward negative infinity). Dafny's `/` is Euclidean, which
      agrees for a positive divisor only. */
  function PyFloorDiv(a: int, b: int): int
    requires b != 0
  {
    if b > 0 then a / b else (-a) / (-b)
  }

  /** Python's `a % b` on integers: the remainder takes the sign of the divisor. */
  function PyMod(a: int, b: int): (r: int)
    requires b != 0
    ensures a == b * PyFloorDiv(a, b) + r
    ensures b > 0 ==> 0 <= r < b
    ensures b < 0 ==> b < r <= 0
  {
    a - b * PyFloorDiv(a, b)
  }

  function DigitChar(d: nat): (c: char)
    requires d < 10
    ensures '0' <= c <= '9'
  {
    "0123456789"[d]
  }

  function DigitValue(c: char): (d: nat)
    requires '0' <= c <= '9'
    ensures d < 10
  {
    (c as int - '0' as int) as nat
  }

  lemma DigitRoundTrip(d: nat)
    requires d < 10
    ensures DigitValue(DigitChar(d)) == d
  {
  }

  predicate IsDigit(c: char) {
    '0' <= c <= '9'
  }

  predicate AllDigits(s: string) {
    forall i | 0 <= i < |s| :: IsDigit(s[i])
  }

  /** Python's `str(n)` for a natural number. */
  function NatToString(n: nat): (s: string)
    ensures |s| >= 1
    ensures AllDigits(s)
    decreases n
  {
    if n < 10 then [DigitChar(n)] else NatToString(n / 10) + [DigitChar(n % 10)]
  }

  /** Reads a string of decimal digits back as a number (`int(s)` on digit strings). */
  function ParseNat(s: string): nat
    requires AllDigits(s)
    decreases |s|
  {
    if |s| == 0 then 0 else ParseNat(s[..|s| - 1]) * 10 + DigitValue(s[|s| - 1])
  }

  /** Decimal rendering loses nothing: parsing it returns the number. */
  lemma {:induction false} ParseNatToString(n: nat)
    ensures ParseNat(NatToString(n)) == n
    decreases n
  {
    var s := NatToString(n);
    if n < 10 {
      assert s[..|s| - 1] == [];
      DigitRoundTrip(n);
    } else {
      var p := NatToString(n / 10);
      assert s == p + [DigitChar(n % 10)];
      assert s[..|s| - 1] == p;
      ParseNatToString(n / 10);
      DigitRoundTrip(n % 10);
    }
  }

  lemma NatToStringInjective(a: nat, b: nat)
    requires NatToString(a) == NatToString(b)
    ensures a == b
  {
    ParseNatToString(a);
    ParseNatToString(b);
  }

  /** Number of occurrences of `x` in `s`. */
  function Count<T(==)>(s: seq<T>, x: T): nat {
    if |s| == 0 then 0 else (if s[0] == x then 1 else 0) + Count(s[1..], x)
  }

  /** The position of the first occurrence of `x` in `s`. */
  function FirstIndex<T(==)>(s: seq<T>, x: T): (i: nat)
    requires x in s
    ensures i < |s| && s[i] == x && x !in s[..i]
  {
    if s[0] == x then 0
    else
      var j := FirstIndex(s[1..], x);
      assert s[..j + 1] == [s[0]] + s[1..][..j];
      j + 1
  }

  /** Python's `list.remove(x)`: drops the first occurrence and keeps the rest in order; the model
      leaves a list without `x` unchanged where Python raises ValueError (the callers only remove
      members). */
  function RemoveFirst<T(==)>(s: seq<T>, x: T): (r: seq<T>)
    ensures x in s ==> var i := FirstIndex(s, x); r == s[..i] + s[i + 1..]
    ensures x in s ==> |r| == |s| - 1
    ensures x !in s ==> r == s
    ensures forall y | y in r :: y in s
  {
    if |s| == 0 then []
    else if s[0] == x then s[1..]
    else
      var t := RemoveFirst(s[1..], x);
      RemoveFirstStep(s, x, t);
      [s[0]] + t
  }

  /** The step of `RemoveFirst` past a head that is not `x`. */
  lemma {:induction false} RemoveFirstStep<T>(s: seq<T>, x: T, t: seq<T>)
    requires |s| > 0 && s[0] != x
    requires x in s[1..] ==> var i := FirstIndex(s[1..], x); t == s[1..][..i] + s[1..][i + 1..]
    ensures x in s <==> x in s[1..]
    ensures x in s ==> var i := FirstIndex(s, x); [s[0]] + t == s[..i] + s[i + 1..]
  {
    assert x in s <==> x in s[1..] by {
      assert s == [s[0]] + s[1..];
    }
    if x in s {
      var j := FirstIndex(s[1..], x);
      assert FirstIndex(s, x) == j + 1;
      calc {
        s[..j + 1] + s[j + 2..];
        { assert s[..j + 1] == [s[0]] + s[1..][..j];
          assert s[j + 2..] == s[1..][j + 1..]; }
        [s[0]] + s[1..][..j] + s[1..][j + 1..];
        [s[0]] + t;
      }
    }
  }

  lemma {:induction false} RemoveFirstCount<T>(s: seq<T>, x: T, y: T)
    ensures Count(RemoveFirst(s, x), y) == Count(s, y) - (if y == x && x in s then 1 else 0)
    decreases |s|
  {
    if |s| == 0 {
    } else if s[0] == x {
    } else {
      var t := RemoveFirst(s[1..], x);
      assert RemoveFirst(s, x) == [s[0]] + t;
      assert ([s[0]] + t)[1..] == t;
      RemoveFirstCount(s[1..], x, y);
      assert x in s <==> x in s[1..] by {
        assert s == [s[0]] + s[1..];
      }
    }
  }

  predicate NoDuplicates<T(==)>(s: seq<T>) {
    forall i, j | 0 <= i < j < |s| :: s[i] != s[j]
  }
}

=== FILE: entities.dfy ===
/** The simulation entities of sim_entities.py as records: a body every entity has
    (`BaseSimulationEntity`) and a role holding what only plants, bots or signals carry. The
    `world` back-reference, display names and colours are not part of the model. */
module Entities {
  import opened Basics
  import Intelligence

  /** Position, energy and life-cycle state shared by every entity. */
  datatype Body = Body(x: real, y: real, energy: real, dead: bool, birthday: Option<int>, age: int, children: int)

  /** `Signal`, `StaticSignal`, or `MobileSignal` with its per-tick displacement
      (`speed * cos(radians)`, `speed * sin(radians)`). */
  datatype SignalShape = PlainSignal | StaticSignal | MobileSignal(xDiff: real, yDiff: real)

  datatype Role =
    | Plant(maxAge: int, maxEnergy: real, growthRate: real, childInvestment: real,
            sporeMinTravel: int, sporeMaxTravel: int, reproductionChance: int)
    | Bot(behavior: Option<Intelligence.Graph>, speed: real, childInvestment: real, maxAge: int,
          peakEnergy: real, generation: int, target: Option<(real, real)>, signal: Option<nat>)
    | Signal(owner: nat, origin: (real, real), detected: seq<nat>, diameter: int, speed: real,
             shape: SignalShape)

  datatype Entity = Entity(body: Body, role: Role)

  /** The class `isinstance` tests against (`StaticSignal` and `MobileSignal` are signals). */
  datatype Kind = PlantKind | BotKind | SignalKind

  function KindOf(e: Entity): Kind {
    match e.role
    case Plant(_, _, _, _, _, _, _) => PlantKind
    case Bot(_, _, _, _, _, _, _, _) => BotKind
    case Signal(_, _, _, _, _, _) => SignalKind
  }

  /** A body as `BaseSimulationEntity.__init__` leaves it. */
  predicate Newborn(b: Body) {
    b.energy == 0.0 && !b.dead && b.age == 0 && b.children == 0 && b.birthday.None?
  }

  /** `BaseSimulationEntity.__init__`: placed at `(x, y)` with no energy, alive, age 0, no
      children and no birthday until a world adopts it. */
  function NewBody(x: real, y: real): (b: Body)
    ensures Newborn(b)
    ensures b.x == x && b.y == y
  {
    Body(x, y, 0.0, false, None, 0, 0)
  }

  /** `Plant(x, y)` with the constants of its constructor. */
  function NewPlant(x: real, y: real): (e: Entity)
    ensures Newborn(e.body) && e.body.x == x && e.body.y == y
    ensures KindOf(e) == PlantKind
    ensures e.role.maxAge == 1000 && e.role.maxEnergy == 200.0 && e.role.growthRate == 2.0
    ensures e.role.childInvestment == 100.0 && e.role.reproductionChance == 2
  {
    Entity(NewBody(x, y), Plant(1000, 200.0, 2.0, 100.0, 10, 80, 2))
  }

  /** `Bot(x, y, generation_number, behavior_graph)`: aims at its own starting point, has no
      signal, and its peak energy starts at 0. */
  function NewBot(x: real, y: real, generation: int, behavior: Option<Intelligence.Graph>): (e: Entity)
    ensures Newborn(e.body) && e.body.x == x && e.body.y == y
    ensures KindOf(e) == BotKind
    ensures e.role.behavior == behavior && e.role.generation == generation
    ensures e.role.signal.None? && e.role.peakEnergy == 0.0 && e.role.target == Some((x, y))
    ensures e.role.childInvestment == 200.0 && e.role.maxAge == 2000 && e.role.speed == 1.0
  {
    Entity(NewBody(x, y), Bot(behavior, 1.0, 200.0, 2000, 0.0, generation, Some((x, y)), None))
  }

  /** `Signal(x, y, owner)`: remembers where its owner stood, detects nothing yet, diameter 8. */
  function NewSignal(x: real, y: real, owner: nat, ownerAt: (real, real)): (e: Entity)
    ensures Newborn(e.body) && KindOf(e) == SignalKind
    ensures e.role.owner == owner && e.role.origin == ownerAt && e.role.detected == []
    ensures e.role.diameter == 8 && e.role.speed == 0.0 && e.role.shape == PlainSignal
  {
    Entity(NewBody(x, y), Signal(owner, ownerAt, [], 8, 0.0, PlainSignal))
  }

  /** `StaticSignal(x, y, owner)`: a signal that stays put, diameter 4. */
  function NewStaticSignal(x: real, y: real, owner: nat, ownerAt: (real, real)): (e: Entity)
    ensures Newborn(e.body) && KindOf(e) == SignalKind
    ensures e.role.detected == [] && e.role.diameter == 4 && e.role.speed == 0.0
    ensures e.role.shape == StaticSignal
  {
    Entity(NewBody(x, y), Signal(owner, ownerAt, [], 4, 0.0, StaticSignal))
  }

  /** `MobileSignal(x, y, radians, owner)`: speed 2, the inherited diameter 8, and a fixed
      per-tick displacement (computed with cos/sin from `radians` in the source). */
  function NewMobileSignal(x: real, y: real, xDiff: real, yDiff: real, owner: nat, ownerAt: (real, real)): (e: Entity)
    ensures Newborn(e.body) && KindOf(e) == SignalKind
    ensures e.role.detected == [] && e.role.diameter == 8 && e.role.speed == 2.0
    ensures e.role.shape == MobileSignal(xDiff, yDiff)
  {
    Entity(NewBody(x, y), Signal(owner, ownerAt, [], 8, 2.0, MobileSignal(xDiff, yDiff)))
  }
}

=== FILE: entity_rules.dfy ===
/** The per-entity rules of sim_entities.py, applied to a stored entity of the world: the base
    upkeep every entity inherits, a plant's growth, reproduction and ageing, a bot's behaviour step
    and upkeep, and a signal's detection sweep.

    Random draws enter as a `Spore` value, and behaviour functions as an oracle `Behave` that is
    given the world, the bot's identity and the function to run. */
module EntityRules {
  import opened Basics
  import opened Entities
  import opened WorldModel
  import Intelligence

  /** What `check_reproduction` drew for one plant: the roll of `random_integers(0, 100)` and the
      child's offset from its parent (distance and angle in the source). */
  datatype Spore = Spore(roll: int, dx: real, dy: real)

  /** A behaviour function run by a bot: the world afterwards and the function's result. */
  type Behave = (World, nat, Intelligence.Callable) -> (World, Option<bool>)

  /** `BaseSimulationEntity.step`: one year older, one unit drained through the ledger, and dead
      once less than one unit is left. Nothing revives an entity. */
  function BaseStep(w: World, id: nat): (r: World)
    requires id in w.store
    ensures r.store.Keys == w.store.Keys && r.store[id].role == w.store[id].role
    ensures var b, b' := w.store[id].body, r.store[id].body;
      && b' == b.(age := b.age + 1, energy := b'.energy, dead := b'.dead)
      && b'.energy == (if b.energy <= 1.0 then 0.0 else b.energy - 1.0)
      && (b'.dead <==> b.dead || b.energy < 2.0)
    ensures forall k | k in w.store && k != id :: r.store[k] == w.store[k]
    ensures w.pool.None? ==> r.pool.None?
    ensures w.pool.Some? ==>
              r.pool.Some? && r.pool.value + r.store[id].body.energy == w.pool.value + w.store[id].body.energy
    ensures Settled(w, r)
    ensures r == w.(store := r.store, pool := r.pool)
  {
    var aged := SetBody(w, id, w.store[id].body.(age := w.store[id].body.age + 1));
    var (drained, _) := DrainFrom(aged, 1.0, id);
    var b := drained.store[id].body;
    if b.energy < 1.0 then SetBody(drained, id, b.(dead := true)) else drained
  }

  /** After the base upkeep an entity with less than one unit of energy is dead, and a dead entity
      stays dead. */
  lemma BaseStepDeathRule(w: World, id: nat)
    requires id in w.store
    ensures BaseStep(w, id).store[id].body.energy < 1.0 ==> BaseStep(w, id).store[id].body.dead
    ensures w.store[id].body.dead ==> BaseStep(w, id).store[id].body.dead
  {
  }

  /** The growth part of `Plant.step`: below its maximum a plant asks the ledger for its growth
      rate; at or above it nothing happens. */
  function Grow(w: World, id: nat): (r: World)
    requires id in w.store && w.store[id].role.Plant?
    ensures w.store[id].body.energy >= w.store[id].role.maxEnergy ==> r == w
    ensures r.store.Keys == w.store.Keys && r.store[id].role == w.store[id].role
    ensures r.store[id].body == w.store[id].body.(energy := r.store[id].body.energy)
    ensures forall k | k in w.store && k != id :: r.store[k] == w.store[k]
    ensures var p := w.store[id];
      p.body.energy < p.role.maxEnergy && p.role.growthRate >= 0.0 && w.pool.None? ==>
        r.store[id].body.energy == p.body.energy + p.role.growthRate
    ensures var p := w.store[id];
      p.body.energy < p.role.maxEnergy && p.role.growthRate >= 0.0 && w.pool.Some? ==>
        r.store[id].body.energy == p.body.energy + Min(p.role.growthRate, w.pool.value)
    ensures w.pool.Some? ==>
              r.pool.Some? && r.pool.value + r.store[id].body.energy == w.pool.value + w.store[id].body.energy
    ensures w.pool.None? ==> r.pool.None?
    ensures Settled(w, r)
    ensures r == w.(store := r.store, pool := r.pool)
  {
    var p := w.store[id];
    if p.body.energy < p.role.maxEnergy then GiveTo(w, p.role.growthRate, id).0 else w
  }

  /** Whether `check_reproduction` goes ahead: enough energy to spare the investment and a winning
      roll. */
  predicate Fires(p: Entity, spore: Spore)
    requires p.role.Plant?
  {
    p.body.energy >= p.role.maxEnergy - p.role.childInvestment && spore.roll < p.role.reproductionChance
  }

  /** The first half of a reproduction: a new plant is created at the drawn offset and funded from
      the parent by a ledger transfer, and the parent's child count goes up by one. The child is
      stored but not yet listed, and the pool is not involved. */
  function Spawn(w: World, id: nat, spore: Spore): (r: (World, nat))
    requires id in w.store && w.store[id].role.Plant?
    ensures var p, baby := w.store[id], r.1;
      && baby == w.nextId && baby !in w.store
      && r.0.store.Keys == w.store.Keys + {baby}
      && r.0.store[baby].role == NewPlant(0.0, 0.0).role
      && r.0.store[baby].body == NewBody(p.body.x + spore.dx, p.body.y + spore.dy).(energy := r.0.store[baby].body.energy)
      && r.0.store[id].role == p.role
      && r.0.store[id].body == p.body.(energy := r.0.store[id].body.energy, dead := r.0.store[id].body.dead,
                                        children := p.body.children + 1)
      && r.0.store[id].body.energy + r.0.store[baby].body.energy == p.body.energy
      && (!p.body.dead ==> r.0.store[baby].body.energy == Min(p.role.childInvestment, p.body.energy))
    ensures forall k | k in w.store && k != id :: r.0.store[k] == w.store[k]
    ensures Settled(w, r.0)
    ensures r.0 == w.(store := r.0.store, nextId := w.nextId + 1)
  {
    var p := w.store[id];
    var (w1, baby) := Allocate(w, NewPlant(p.body.x + spore.dx, p.body.y + spore.dy));
    var (w2, _) := TransferBetween(w1, p.role.childInvestment, id, baby);
    var parent := w2.store[id].body;
    (SetBody(w2, id, parent.(children := parent.children + 1)), baby)
  }

  /** `Plant.check_reproduction`: when it fires, the child is funded first and only then offered to
      the world, which may refuse it; a refused child keeps the energy it was given. */
  function CheckReproduction(w: World, id: nat, spore: Spore): (r: World)
    requires id in w.store && w.store[id].role.Plant?
    ensures !Fires(w.store[id], spore) ==> r == w
    ensures Fires(w.store[id], spore) ==>
      var (funded, baby) := Spawn(w, id, spore);
      var admitted := funded.store[baby].body.energy >= 0.0 && Admits(w.plantLimit, |w.plants|);
      && r.nextId == w.nextId + 1 && r.store.Keys == w.store.Keys + {baby}
      && r.store[id] == funded.store[id]
      && (admitted ==> r.plants == w.plants + [baby]
                       && r.store[baby].body == Wrap(funded.store[baby].body, w.bounds).(birthday := Some(w.tick)))
      && (!admitted ==> r.plants == w.plants && r.store[baby] == funded.store[baby])
      && r.bots == w.bots && r.signals == w.signals && r.pool == w.pool
    ensures forall k | k in w.store && k != id :: r.store[k] == w.store[k]
    ensures Settled(w, r) && r.recentlyDead == w.recentlyDead && r.selected == w.selected
    ensures forall k | k in r.store && k !in w.store :: r.store[k].body.age == 0 && r.store[k].role.Plant?
  {
    if !Fires(w.store[id], spore) then w
    else
      var (funded, baby) := Spawn(w, id, spore);
      var r := AddEntity(funded, baby).0;
      SettledTrans(w, funded, r);
      r
  }

  /** The child is funded before the world decides whether to admit it, so a refused child takes
      its energy out of the ledger: with a cap of one plant, a parent holding 200 units and a
      winning roll, the listed plants hold 100 units less afterwards and the pool gains nothing. */
  lemma RefusedChildLeaksEnergy()
    ensures var parent := Entity(Body(5.0, 5.0, 200.0, false, Some(0), 0, 0), NewPlant(0.0, 0.0).role);
      var w: World := WorldState(0, map[0 := parent], 1, [0], [], [], None, Some(1), None, Some(0.0), Some(0.0),
                                 None, [], None, []);
      var r := CheckReproduction(w, 0, Spore(0, 1.0, 1.0));
      && Held(w.store, w.plants) == 200.0
      && r.plants == [0] && r.pool == Some(0.0)
      && Held(r.store, r.plants) == 100.0
  {
    var parent := Entity(Body(5.0, 5.0, 200.0, false, Some(0), 0, 0), NewPlant(0.0, 0.0).role);
    var w: World := WorldState(0, map[0 := parent], 1, [0], [], [], None, Some(1), None, Some(0.0), Some(0.0),
                               None, [], None, []);
    var (funded, baby) := Spawn(w, 0, Spore(0, 1.0, 1.0));
    assert funded.store[baby].body.energy == 100.0;
    var r := CheckReproduction(w, 0, Spore(0, 1.0, 1.0));
    assert r.store[0].body.energy == 100.0;
    assert r.plants == [0];
    assert Held(r.store, [0]) == r.store[0].body.energy + Held(r.store, []);
  }

  /** The end of `Plant.step`: dead when older than the maximum age, then one year older. */
  function Senesce(w: World, id: nat): (r: World)
    requires id in w.store && w.store[id].role.Plant?
    ensures r.store == w.store[id := Entity(w.store[id].body.(age := w.store[id].body.age + 1,
              dead := w.store[id].body.dead || w.store[id].body.age > w.store[id].role.maxAge), w.store[id].role)]
    ensures Settled(w, r)
    ensures r == w.(store := r.store)
  {
    var q := w.store[id];
    SetBody(w, id, q.body.(age := q.body.age + 1, dead := q.body.dead || q.body.age > q.role.maxAge))
  }

  /** `Plant.step`: grow, try to reproduce, die when older than the maximum age (judged before the
      birthday), then grow one year older. A plant pays no upkeep and never moves. */
  function PlantStep(w: World, id: nat, spore: Spore): (r: World)
    requires id in w.store && w.store[id].role.Plant?
    ensures w.store.Keys <= r.store.Keys
    ensures var p, q := w.store[id], r.store[id];
      && q.role == p.role
      && q.body.age == p.body.age + 1
      && q.body.x == p.body.x && q.body.y == p.body.y
      && (p.body.age > p.role.maxAge ==> q.body.dead)
      && (p.body.dead ==> q.body.dead)
    ensures var g := Grow(w, id);
      !Fires(g.store[id], spore) ==>
        && r.store[id].body == g.store[id].body.(age := g.store[id].body.age + 1,
                                                  dead := g.store[id].body.dead || g.store[id].body.age > g.store[id].role.maxAge)
        && r == g.(store := r.store)
    ensures r.bots == w.bots && r.signals == w.signals
    ensures Settled(w, r) && r.recentlyDead == w.recentlyDead && r.selected == w.selected
    ensures forall k | k in w.store && k != id :: r.store[k] == w.store[k]
    ensures forall k | k in r.store && k !in w.store :: r.store[k].body.age == 0 && r.store[k].role.Plant?
  {
    var grown := Grow(w, id);
    var spawned := CheckReproduction(grown, id, spore);
    var r := Senesce(spawned, id);
    SettledTrans(w, grown, spawned);
    SettledTrans(w, spawned, r);
    r
  }

  /** A plant that neither reproduces nor exceeds its age keeps its life: without reproduction only
      age kills a plant. */
  lemma PlantOnlyDiesByAgeOrSpawning(w: World, id: nat, spore: Spore)
    requires id in w.store && w.store[id].role.Plant?
    requires !w.store[id].body.dead && w.store[id].body.age <= w.store[id].role.maxAge
    requires !Fires(Grow(w, id).store[id], spore)
    ensures !PlantStep(w, id, spore).store[id].body.dead
  {
  }

  /** Merging what a behaviour function did into the world it ran in. Python objects do not vanish
      or change class, so every stored entity stays stored with its kind; entities the function
      created or changed are taken over, and so are the entity lists and the pool, which the
      function may change through `add_entity` and the ledger. The clock, caps, bounds, selection,
      aggregate, index and death record are not a behaviour function's business and are kept. */
  function Merge(before: World, after: World): (r: World)
    ensures r.store.Keys == before.store.Keys + after.store.Keys
    ensures forall k | k in before.store :: KindOf(r.store[k]) == KindOf(before.store[k])
    ensures forall k | k in after.store && (k in before.store ==> KindOf(after.store[k]) == KindOf(before.store[k])) ::
              r.store[k] == after.store[k]
    ensures r.nextId >= before.nextId && r.nextId >= after.nextId
    ensures r == before.(store := r.store, nextId := r.nextId, plants := after.plants, bots := after.bots,
                         signals := after.signals, pool := after.pool)
  {
    var keys := before.store.Keys + after.store.Keys;
    var store := map k | k in keys ::
      if k in after.store && (k in before.store ==> KindOf(after.store[k]) == KindOf(before.store[k]))
      then after.store[k] else before.store[k];
    assert store.Keys == keys;
    RefsGrow(before.store.Keys, keys);
    RefsGrow(after.store.Keys, keys);
    var next := if before.nextId >= after.nextId then before.nextId else after.nextId;
    before.(store := store, nextId := next, plants := after.plants, bots := after.bots,
            signals := after.signals, pool := after.pool)
  }

  /** A behaviour function that changes nothing leaves the world as it was. */
  lemma MergeUnchanged(w: World)
    ensures Merge(w, w) == w
  {
    var r := Merge(w, w);
    assert r.store == w.store;
  }

  /** The oracle as the behaviour graph calls it: the function runs for bot `id` and its effect is
      merged into the world. */
  function Call(behave: Behave, id: nat): (World, Intelligence.Callable) -> (World, Option<bool>) {
    (s: World, f: Intelligence.Callable) => var (after, answer) := behave(s, id, f); (Merge(s, after), answer)
  }

  /** `if self.signal and self.signal.dead: self.signal = None`. */
  function DropDeadSignal(w: World, id: nat): (r: World)
    requires id in w.store && w.store[id].role.Bot?
    ensures var s := w.store[id].role.signal;
      r.store == w.store[id := Entity(w.store[id].body, w.store[id].role.(signal :=
        if s.Some? && w.store[s.value].body.dead then None else s))]
    ensures r == w.(store := r.store)
  {
    var e := w.store[id];
    var s := e.role.signal;
    if s.Some? && w.store[s.value].body.dead then SetEntity(w, id, Entity(e.body, e.role.(signal := None)))
    else SetEntity(w, id, e)
  }

  /** The first half of `Bot.step`: a bot without a behaviour graph raises; otherwise a dead signal
      is forgotten, the graph takes one step with the bot's behaviour functions, and the bot keeps
      the graph with its cursor moved. */
  function BehaviorPhase(w: World, id: nat, behave: Behave): (r: Result<World>)
    requires id in w.store && w.store[id].role.Bot?
    ensures w.store[id].role.behavior.None? ==> r == Err(MissingBehavior)
    ensures w.store[id].role.behavior.Some? ==>
              var g := w.store[id].role.behavior.value;
              (r.Err? <==> Intelligence.Step(g, DropDeadSignal(w, id), Call(behave, id)).Err?)
    ensures r.Ok? ==> var g := w.store[id].role.behavior.value;
      && id in r.value.store && r.value.store[id].role.Bot?
      && r.value.store[id].role.behavior.Some?
      && r.value.store[id].role.behavior.value.nodes == g.nodes
      && g.current.Some?
      && r.value.store[id].role.behavior.value.current in Intelligence.Successors(g.nodes[g.current.value])
    ensures r.Ok? ==> Settled(w, r.value) && r.value.recentlyDead == w.recentlyDead && r.value.selected == w.selected
  {
    var e := w.store[id];
    if e.role.behavior.None? then Err(MissingBehavior)
    else
      var w1 := DropDeadSignal(w, id);
      var g := e.role.behavior.value;
      var (g', w2) :- Intelligence.Step(g, w1, Call(behave, id));
      assert w2 == Merge(w1, behave(w1, id, g.nodes[g.current.value].fn).0);
      var b := w2.store[id];
      Ok(SetEntity(w2, id, Entity(b.body, b.role.(behavior := Some(g')))))
  }

  /** `if self.signal and self.signal not in self.world.signals: add_entity(self.signal)`: a signal
      the world does not list yet is offered to it once per step, and is listed after the step
      unless its energy is negative. Only a signal can be a bot's signal, so any other referent is
      left alone. The bot itself, the other lists and the pool are untouched. */
  function RegisterSignal(w: World, id: nat): (r: World)
    requires id in w.store && w.store[id].role.Bot?
    ensures r.store.Keys == w.store.Keys && r.store[id] == w.store[id]
    ensures var s := w.store[id].role.signal;
      var registers := s.Some? && s.value !in w.signals && KindOf(w.store[s.value]) == SignalKind
                       && w.store[s.value].body.energy >= 0.0;
      && (registers ==> r.signals == w.signals + [s.value])
      && (!registers ==> r.signals == w.signals)
    ensures r.plants == w.plants && r.bots == w.bots && r.pool == w.pool
    ensures forall k | k in w.store :: r.store[k].role == w.store[k].role
    ensures Settled(w, r)
    ensures r == w.(store := r.store, signals := r.signals)
  {
    var s := w.store[id].role.signal;
    if s.Some? && s.value !in w.signals && KindOf(w.store[s.value]) == SignalKind then AddEntity(w, s.value).0
    else w
  }

  /** The end of `Bot.step`: dead once its age reaches the maximum, and the peak energy raised to the
      current energy. */
  function AgeAndPeak(w: World, id: nat): (r: World)
    requires id in w.store && w.store[id].role.Bot?
    ensures r.store.Keys == w.store.Keys && r.store[id].role.Bot?
    ensures var e, e' := w.store[id], r.store[id];
      && e'.body == e.body.(dead := e.body.dead || e.body.age >= e.role.maxAge)
      && e'.role == e.role.(peakEnergy := Max(e.role.peakEnergy, e.body.energy))
    ensures r.store == w.store[id := r.store[id]]
    ensures Settled(w, r)
    ensures r == w.(store := r.store)
  {
    var e := w.store[id];
    var dead := e.body.dead || e.body.age >= e.role.maxAge;
    var peak := if e.body.energy > e.role.peakEnergy then e.body.energy else e.role.peakEnergy;
    SetEntity(w, id, Entity(e.body.(dead := dead), e.role.(peakEnergy := peak)))
  }

  /** The second half of `Bot.step`: register a new signal, pay the base upkeep, die of old age, and
      raise the peak energy to the current energy. */
  function BotUpkeep(w: World, id: nat): (r: World)
    requires id in w.store && w.store[id].role.Bot?
    ensures id in r.store && r.store.Keys == w.store.Keys && r.store[id].role.Bot?
    ensures var b, ro, b', ro' := w.store[id].body, w.store[id].role, r.store[id].body, r.store[id].role;
      && ro' == ro.(peakEnergy := ro'.peakEnergy)
      && b' == b.(age := b.age + 1, energy := b'.energy, dead := b'.dead)
      && b'.energy == (if b.energy <= 1.0 then 0.0 else b.energy - 1.0)
      && (b'.dead <==> b.dead || b.energy < 2.0 || b.age + 1 >= ro.maxAge)
      && ro'.peakEnergy == Max(ro.peakEnergy, b'.energy)
    ensures r.signals == RegisterSignal(w, id).signals
    ensures r.plants == w.plants && r.bots == w.bots
    ensures Settled(w, r) && r.recentlyDead == w.recentlyDead && r.selected == w.selected
    ensures w.pool.Some? ==>
              r.pool.Some? && r.pool.value + r.store[id].body.energy == w.pool.value + w.store[id].body.energy
  {
    var w1 := RegisterSignal(w, id);
    var w2 := BaseStep(w1, id);
    var r := AgeAndPeak(w2, id);
    SettledTrans(w, w1, w2);
    SettledTrans(w, w2, r);
    r
  }

  /** `Bot.step`: the behaviour step, then the upkeep; an exception in the first half ends the step. */
  function BotStep(w: World, id: nat, behave: Behave): (r: Result<World>)
    requires id in w.store && w.store[id].role.Bot?
    ensures r.Err? <==> BehaviorPhase(w, id, behave).Err?
    ensures r.Ok? ==> id in r.value.store && r.value.store[id].role.Bot?
    ensures r.Ok? ==> Settled(w, r.value) && r.value.recentlyDead == w.recentlyDead && r.value.selected == w.selected
    ensures r.Ok? ==> var mid := BehaviorPhase(w, id, behave).value;
      && r.value.store[id].role.peakEnergy >= r.value.store[id].body.energy
      && r.value.store[id].role.peakEnergy >= mid.store[id].role.peakEnergy
      && r.value.store[id].body.age == mid.store[id].body.age + 1
      && (r.value.store[id].body.age >= r.value.store[id].role.maxAge ==> r.value.store[id].body.dead)
  {
    var mid :- BehaviorPhase(w, id, behave);
    Ok(BotUpkeep(mid, id))
  }

  /** A sighting within `radius` of the point, by the Euclidean distance `query_ball_point` uses; a
      negative radius finds nothing. */
  predicate Within(s: Sighting, x: real, y: real, radius: int) {
    radius >= 0 && (s.x - x) * (s.x - x) + (s.y - y) * (s.y - y) <= (radius * radius) as real
  }

  /** The detection list a signal builds from the index: each entity sighted within the radius,
      once, in index order. */
  function Detected(idx: seq<Sighting>, x: real, y: real, radius: int): (d: seq<nat>)
    ensures NoDuplicates(d)
    ensures forall k :: k in d <==> exists s | s in idx :: s.id == k && Within(s, x, y, radius)
    decreases |idx|
  {
    if |idx| == 0 then []
    else
      var front := idx[..|idx| - 1];
      var s := idx[|idx| - 1];
      assert idx == front + [s];
      var d := Detected(front, x, y, radius);
      if Within(s, x, y, radius) && s.id !in d then d + [s.id] else d
  }

  /** The first half of `Signal.step`: a mobile signal moves by its displacement, and the
      detection list is rebuilt from the index around the signal's (new) position with radius
      `diameter // 2`, or emptied when there is no index. */
  function Sense(w: World, id: nat): (r: World)
    requires id in w.store && w.store[id].role.Signal?
    ensures r.store.Keys == w.store.Keys && r.store[id].role.Signal?
    ensures var e, e' := w.store[id], r.store[id];
      && (e.role.shape.MobileSignal? ==> e'.body == e.body.(x := e.body.x + e.role.shape.xDiff,
                                                            y := e.body.y + e.role.shape.yDiff))
      && (!e.role.shape.MobileSignal? ==> e'.body == e.body)
      && e'.role == e.role.(detected := e'.role.detected)
      && NoDuplicates(e'.role.detected)
      && (w.index.None? ==> e'.role.detected == [])
      && (w.index.Some? ==> forall k :: k in e'.role.detected <==>
            exists s | s in w.index.value :: s.id == k && Within(s, e'.body.x, e'.body.y, PyFloorDiv(e.role.diameter, 2)))
    ensures forall k | k in w.store && k != id :: r.store[k] == w.store[k]
    ensures Settled(w, r)
    ensures r == w.(store := r.store)
  {
    var e := w.store[id];
    var moved := match e.role.shape
      case MobileSignal(dx, dy) => e.body.(x := e.body.x + dx, y := e.body.y + dy)
      case _ => e.body;
    var detected := if w.index.Some? then Detected(w.index.value, moved.x, moved.y, PyFloorDiv(e.role.diameter, 2)) else [];
    SetEntity(w, id, Entity(moved, e.role.(detected := detected)))
  }

  /** `Signal.step` (and `StaticSignal.step`, `MobileSignal.step`): a mobile signal first moves by its
      displacement; the detection list is rebuilt from the index around the signal's position with
      radius `diameter // 2` (empty when there is no index); then the base upkeep. */
  function SignalStep(w: World, id: nat): (r: World)
    requires id in w.store && w.store[id].role.Signal?
    ensures id in r.store && r.store.Keys == w.store.Keys && r.store[id].role.Signal?
    ensures var e, e' := w.store[id], r.store[id];
      && (e.role.shape.MobileSignal? ==> e'.body.x == e.body.x + e.role.shape.xDiff
                                         && e'.body.y == e.body.y + e.role.shape.yDiff)
      && (!e.role.shape.MobileSignal? ==> e'.body.x == e.body.x && e'.body.y == e.body.y)
      && e'.body.age == e.body.age + 1
      && e'.role == e.role.(detected := e'.role.detected)
      && NoDuplicates(e'.role.detected)
      && (w.index.None? ==> e'.role.detected == [])
      && (w.index.Some? ==> forall k :: k in e'.role.detected <==>
            exists s | s in w.index.value :: s.id == k && Within(s, e'.body.x, e'.body.y, PyFloorDiv(e.role.diameter, 2)))
    ensures forall k | k in w.store && k != id :: r.store[k] == w.store[k]
    ensures r.plants == w.plants && r.bots == w.bots && r.signals == w.signals
    ensures Settled(w, r) && r.recentlyDead == w.recentlyDead && r.selected == w.selected
  {
    var sensed := Sense(w, id);
    var r := BaseStep(sensed, id);
    SettledTrans(w, sensed, r);
    r
  }
}

=== FILE: gui.dfy ===
/** The arithmetic of the viewer (gui.py): the camera and zoom of the world view and its two
    coordinate maps, the glyph atlas of the bitmap font and the layout of a line of text, the
    label positions of the side panels, and the cells the bot panel shows.

    Drawing itself (surfaces, pixels, colours, scaling) is not modelled. */
module Gui {
  import opened Basics
  import opened Entities
  import opened WorldModel

  /** The view's size in pixels, the world point at its top-left corner, and the zoom factor. */
  datatype ViewState = ViewState(width: int, height: int, cameraX: real, cameraY: real, zoom: int)

  /** The zoom starts at 1, doubles and halves, so it never drops below 1. */
  type View = v: ViewState | v.zoom >= 1 witness ViewState(0, 0, 0.0, 0.0, 1)

  /** `ViewPort(world, width, height)`: camera at the origin, zoom 1. */
  function NewView(width: int, height: int): (v: View)
    ensures v.width == width && v.height == height && v.cameraX == 0.0 && v.cameraY == 0.0 && v.zoom == 1
  {
    ViewState(width, height, 0.0, 0.0, 1)
  }

  /** `zoom_in`: doubles the zoom. */
  function ZoomIn(v: View): (r: View)
    ensures r == v.(zoom := r.zoom) && r.zoom == 2 * v.zoom
  {
    v.(zoom := 2 * v.zoom)
  }

  /** `zoom_out`: halves the zoom (rounding down) when it is at least 2, and does nothing at 1. */
  function ZoomOut(v: View): (r: View)
    ensures r == v.(zoom := r.zoom)
    ensures v.zoom >= 2 ==> 2 * r.zoom <= v.zoom < 2 * r.zoom + 2
    ensures v.zoom == 1 ==> r == v
  {
    if v.zoom >= 2 then v.(zoom := v.zoom / 2) else v
  }

  /** A power of two. */
  predicate PowerOfTwo(n: int)
    decreases n
  {
    n == 1 || (n >= 2 && n % 2 == 0 && PowerOfTwo(n / 2))
  }

  /** Zooming out undoes zooming in, and from the initial zoom both keep the zoom a power of two,
      so zooming out undoes zooming in and vice versa except at zoom 1. */
  lemma ZoomRoundTrip(v: View)
    ensures ZoomOut(ZoomIn(v)) == v
    ensures PowerOfTwo(v.zoom) ==> PowerOfTwo(ZoomIn(v).zoom) && PowerOfTwo(ZoomOut(v).zoom)
    ensures PowerOfTwo(v.zoom) && v.zoom >= 2 ==> ZoomIn(ZoomOut(v)) == v
  {
  }

  /** A world distance on the surface: multiplied by the zoom. */
  function Scale(a: real, zoom: int): real
    requires zoom >= 1
  {
    a * zoom as real
  }

  /** A surface distance in the world: divided by the zoom. */
  function Unscale(a: real, zoom: int): real
    requires zoom >= 1
  {
    a / zoom as real
  }

  /** Scaling and unscaling undo each other, keep order and sign, and commute with halving. */
  lemma ScaleFacts(a: real, c: real, zoom: int)
    requires zoom >= 1
    ensures Unscale(Scale(a, zoom), zoom) == a && Scale(Unscale(a, zoom), zoom) == a
    ensures a < c <==> Scale(a, zoom) < Scale(c, zoom)
    ensures 0.0 <= a <==> 0.0 <= Scale(a, zoom)
    ensures Scale(a / 2.0, zoom) == Scale(a, zoom) / 2.0
  {
    var z := zoom as real;
    assert z > 0.0;
    assert (a * z) / z == a;
    assert (a / z) * z == a;
  }

  /** `world_point_to_surface`. */
  function WorldToSurface(v: View, x: real, y: real): (real, real) {
    (Scale(x - v.cameraX, v.zoom), Scale(y - v.cameraY, v.zoom))
  }

  /** `surface_point_to_world`. */
  function SurfaceToWorld(v: View, sx: real, sy: real): (real, real) {
    (Unscale(sx, v.zoom) + v.cameraX, Unscale(sy, v.zoom) + v.cameraY)
  }

  /** The two coordinate maps are inverse to each other in both directions. */
  lemma CoordinateMapsAreInverse(v: View, x: real, y: real)
    ensures var (sx, sy) := WorldToSurface(v, x, y); SurfaceToWorld(v, sx, sy) == (x, y)
    ensures var (wx, wy) := SurfaceToWorld(v, x, y); WorldToSurface(v, wx, wy) == (x, y)
  {
    ScaleFacts(x - v.cameraX, 0.0, v.zoom);
    ScaleFacts(y - v.cameraY, 0.0, v.zoom);
    ScaleFacts(x, 0.0, v.zoom);
    ScaleFacts(y, 0.0, v.zoom);
  }

  /** `point_is_visible`: the point lies in the box of world coordinates the view shows. */
  function PointIsVisible(v: View, x: real, y: real): (r: bool)
    ensures r <==> var (sx, sy) := WorldToSurface(v, x, y);
      0.0 <= sx < v.width as real && 0.0 <= sy < v.height as real
  {
    ScaleFacts(x - v.cameraX, Unscale(v.width as real, v.zoom), v.zoom);
    ScaleFacts(y - v.cameraY, Unscale(v.height as real, v.zoom), v.zoom);
    ScaleFacts(v.width as real, 0.0, v.zoom);
    ScaleFacts(v.height as real, 0.0, v.zoom);
    && v.cameraX <= x < Unscale(v.width as real, v.zoom) + v.cameraX
    && v.cameraY <= y < Unscale(v.height as real, v.zoom) + v.cameraY
  }

  /** `center_camera_on_point`: moves the camera so the view's box is centred on the point. */
  function CenterCameraOnPoint(v: View, x: real, y: real): (r: View)
    ensures r == v.(cameraX := r.cameraX, cameraY := r.cameraY)
  {
    v.(cameraX := x - Unscale(v.width as real, v.zoom) / 2.0, cameraY := y - Unscale(v.height as real, v.zoom) / 2.0)
  }

  /** After centring on a point, the point lands in the middle of the surface, and it is visible
      exactly when the view has room. */
  lemma CenteredPointIsInTheMiddle(v: View, x: real, y: real)
    ensures var c := CenterCameraOnPoint(v, x, y);
      WorldToSurface(c, x, y) == (v.width as real / 2.0, v.height as real / 2.0)
    ensures PointIsVisible(CenterCameraOnPoint(v, x, y), x, y) <==> v.width > 0 && v.height > 0
  {
    var c := CenterCameraOnPoint(v, x, y);
    ScaleFacts(Unscale(v.width as real, v.zoom), 0.0, v.zoom);
    ScaleFacts(Unscale(v.height as real, v.zoom), 0.0, v.zoom);
    ScaleFacts(v.width as real, 0.0, v.zoom);
    ScaleFacts(v.height as real, 0.0, v.zoom);
    assert x - c.cameraX == Unscale(v.width as real, v.zoom) / 2.0;
    assert y - c.cameraY == Unscale(v.height as real, v.zoom) / 2.0;
  }

  /** A source rectangle of the font atlas: left, top, width, height. */
  datatype Rect = Rect(x: int, y: int, w: int, h: int)

  /** The atlas cell of character code `code`: the atlas holds the codes from 32 on, `perRow` to a
      row, every cell framed by `border` pixels. */
  function GlyphRect(code: int, charWidth: int, charHeight: int, border: int, perRow: int): (r: Rect)
    requires perRow != 0
    ensures r.w == charWidth && r.h == charHeight
    ensures perRow > 0 ==> var k := code - 32;
      && r.x == border + (k % perRow) * (border + charWidth)
      && r.y == border + (k / perRow) * (border + charHeight)
  {
    var index := code - 32;
    var row := PyFloorDiv(index, perRow);
    var col := PyMod(index, perRow);
    Rect(border * (col + 1) + col * charWidth, border * (row + 1) + row * charHeight, charWidth, charHeight)
  }

  /** `TextWriter`'s character map: one atlas cell for each code from 32 to 127. */
  function Glyphs(charWidth: int, charHeight: int, border: int, perRow: int): (m: map<char, Rect>)
    requires perRow != 0
    ensures forall c: char :: c in m <==> 32 <= c as int < 128
    ensures forall c | c in m :: m[c] == GlyphRect(c as int, charWidth, charHeight, border, perRow)
  {
    map i | 32 <= i < 128 :: i as char := GlyphRect(i, charWidth, charHeight, border, perRow)
  }

  /** The code an atlas cell belongs to, read back from the cell's position. */
  function GlyphCode(r: Rect, charWidth: int, charHeight: int, border: int, perRow: int): int
    requires border + charWidth > 0 && border + charHeight > 0
  {
    32 + perRow * ((r.y - border) / (border + charHeight)) + (r.x - border) / (border + charWidth)
  }

  /** The atlas cell determines its code whenever the cells have extent. */
  lemma GlyphCodeRoundTrip(i: int, charWidth: int, charHeight: int, border: int, perRow: int)
    requires perRow > 0 && border + charWidth > 0 && border + charHeight > 0
    ensures GlyphCode(GlyphRect(i, charWidth, charHeight, border, perRow), charWidth, charHeight, border, perRow) == i
  {
    var k := i - 32;
    var r := GlyphRect(i, charWidth, charHeight, border, perRow);
    var col, row := k % perRow, k / perRow;
    assert r.x - border == col * (border + charWidth);
    assert r.y - border == row * (border + charHeight);
    DivCancel(col, border + charWidth);
    DivCancel(row, border + charHeight);
    assert k == perRow * row + col;
  }

  /** So distinct codes get distinct atlas cells. */
  lemma GlyphsAreDistinct(i: int, j: int, charWidth: int, charHeight: int, border: int, perRow: int)
    requires perRow > 0 && border + charWidth > 0 && border + charHeight > 0
    requires i != j
    ensures GlyphRect(i, charWidth, charHeight, border, perRow) != GlyphRect(j, charWidth, charHeight, border, perRow)
  {
    GlyphCodeRoundTrip(i, charWidth, charHeight, border, perRow);
    GlyphCodeRoundTrip(j, charWidth, charHeight, border, perRow);
  }

  /** A text writer whose character map was built from its settings. */
  datatype WriterState = WriterState(charWidth: int, charHeight: int, border: int, perRow: int, charMap: map<char, Rect>)

  predicate Formed(t: WriterState) {
    t.perRow != 0 && t.charMap == Glyphs(t.charWidth, t.charHeight, t.border, t.perRow)
  }

  type Writer = t: WriterState | Formed(t) witness WriterState(0, 0, 0, 1, Glyphs(0, 0, 0, 1))

  /** `TextWriter(filename, char_width, char_height, border_gap, chars_per_row)` without the image:
      a row length of 0 makes the layout divide by zero. */
  function NewWriter(charWidth: int, charHeight: int, border: int, perRow: int): (r: Result<Writer>)
    ensures r.Err? <==> perRow == 0
    ensures r.Err? ==> r.error == DivisionByZero
    ensures r.Ok? ==> r.value.charWidth == charWidth && r.value.charHeight == charHeight
                      && r.value.border == border && r.value.perRow == perRow
  {
    if perRow == 0 then Err(DivisionByZero)
    else Ok(WriterState(charWidth, charHeight, border, perRow, Glyphs(charWidth, charHeight, border, perRow)))
  }

  /** One glyph copied onto the text surface: where it goes and which atlas cell it comes from. */
  datatype Blit = Blit(destX: int, source: Rect)

  /** The atlas cell used for a character: its own, or that of code 127 when the map lacks it. */
  function SourceOf(t: Writer, c: char): (r: Rect)
    ensures r == GlyphRect(if 32 <= c as int < 128 then c as int else 127, t.charWidth, t.charHeight, t.border, t.perRow)
  {
    if c in t.charMap then t.charMap[c] else t.charMap[127 as char]
  }

  /** `get_text_surface` without the pixels: the surface is as wide as the characters plus one
      pixel of spacing each, and character `i` is copied `i` cells from the left. */
  function TextLayout(t: Writer, text: string): (r: (int, seq<Blit>))
    ensures r.0 == |text| * t.charWidth + |text|
    ensures |r.1| == |text|
    ensures forall i | 0 <= i < |text| :: r.1[i].destX == i * (t.charWidth + 1)
    ensures forall i | 0 <= i < |text| :: r.1[i].source == SourceOf(t, text[i])
  {
    var blits := seq(|text|, i requires 0 <= i < |text| => Blit(i * t.charWidth + i, SourceOf(t, text[i])));
    assert forall i | 0 <= i < |text| :: blits[i].destX == i * (t.charWidth + 1) by {
      forall i | 0 <= i < |text| ensures i * t.charWidth + i == i * (t.charWidth + 1) {}
    }
    (|text| * t.charWidth + |text|, blits)
  }

  /** Moves blits right by `dx`. */
  function Shift(blits: seq<Blit>, dx: int): (r: seq<Blit>)
    ensures |r| == |blits|
    ensures forall i | 0 <= i < |blits| :: r[i] == blits[i].(destX := blits[i].destX + dx)
  {
    seq(|blits|, i requires 0 <= i < |blits| => blits[i].(destX := blits[i].destX + dx))
  }

  /** Laying out two texts one after the other is laying out their concatenation: the widths add
      up and the second text's glyphs move right by the first one's width. */
  lemma LayoutOfConcatenation(t: Writer, a: string, b: string)
    ensures TextLayout(t, a + b).0 == TextLayout(t, a).0 + TextLayout(t, b).0
    ensures TextLayout(t, a + b).1 == TextLayout(t, a).1 + Shift(TextLayout(t, b).1, TextLayout(t, a).0)
  {
    var whole, left, right := TextLayout(t, a + b).1, TextLayout(t, a).1, Shift(TextLayout(t, b).1, TextLayout(t, a).0);
    forall i | 0 <= i < |a + b|
      ensures whole[i] == (left + right)[i]
    {
      if i >= |a| {
        assert (a + b)[i] == b[i - |a|];
        assert i * (t.charWidth + 1) == (i - |a|) * (t.charWidth + 1) + |a| * t.charWidth + |a|;
      }
    }
  }

  /** A panel label and where it is drawn. */
  type Placed = (string, (int, int))

  /** `_position_labels`: the header at (x, x), then label `k` at (x, (k + 1) * 22 * scale). */
  function PositionLabels(header: string, labels: seq<string>, x: int, scale: int): (r: seq<Placed>)
    ensures |r| == |labels| + 1 && r[0] == (header, (x, x))
    ensures forall k | 0 <= k < |labels| :: r[k + 1] == (labels[k], (x, (k + 1) * (22 * scale)))
  {
    var row := 22 * scale;
    var positions := seq(|labels|, k requires 0 <= k < |labels| => (labels[k], (x, (k + 1) * row)));
    [(header, (x, x))] + positions
  }

  /** With a positive scale and a header closer to the top than one row, the labels run straight
      down one column in the order given, the header first. */
  lemma LabelsRunDownOneColumn(header: string, labels: seq<string>, x: int, scale: int)
    requires scale >= 1 && x < 22 * scale
    ensures var r := PositionLabels(header, labels, x, scale);
      && (forall i | 0 <= i < |r| :: r[i].1.0 == x)
      && (forall i, j | 0 <= i < j < |r| :: r[i].1.1 < r[j].1.1)
      && (forall i | 0 <= i < |r| :: r[i].0 == ([header] + labels)[i])
  {
    var r := PositionLabels(header, labels, x, scale);
    forall i, j | 0 <= i < j < |r|
      ensures r[i].1.1 < r[j].1.1
    {
      if i > 0 {
        assert i * (22 * scale) < j * (22 * scale);
      } else {
        assert 22 * scale <= j * (22 * scale);
      }
    }
  }

  const InfoHeader: string := "Metrics"
  const InfoLabels: seq<string> := ["Tick", "Time", "FPS", "Free Energy", "Plants", "Bots", "Signals"]
  const BotHeader: string := "Selected Bot"
  const BotLabels: seq<string> :=
    ["Name", "Position", "Energy", "Peak Energy", "Generation", "Birthday", "Age", "Children", "Brain Size"]

  /** One value cell of the bot panel. The model carries no names, so a bot's name cell holds its
      identity. */
  datatype Cell =
    | Dash
    | NameOf(id: nat)
    | Position(x: int, y: int)
    | Amount(value: real)
    | Whole(n: int)
    | Day(birthday: Option<int>)
    | AgeShare(age: int, percent: int)

  /** Python's `int()` on a float: rounds toward zero. */
  function Truncate(r: real): (n: int)
    ensures n as real <= r < n as real + 1.0 || n as real - 1.0 < r <= n as real
    ensures (n >= 0 <==> r > -1.0) && (r >= 0.0 ==> n as real <= r) && (r < 0.0 ==> r <= n as real)
  {
    if r >= 0.0 then r.Floor else -((-r).Floor)
  }

  /** `BotPanel._poll_data`: nine dashes without a selection; otherwise the selected bot's name,
      truncated position, energy, peak energy, generation, birthday, age with its share of the
      maximum age in percent, children and graph size. A selection that is not a bot, a maximum age
      of 0 and a bot without a graph raise, in the order the cells are computed. */
  function PollData(w: World): (r: Result<seq<Cell>>)
    ensures w.selected.None? ==> r == Ok(seq(9, _ => Dash))
    ensures r.Ok? ==> |r.value| == |BotLabels|
    ensures r.Ok? ==> ((forall i | 0 <= i < |r.value| :: r.value[i] == Dash) <==> w.selected.None?)
    ensures r.Ok? && w.selected.Some? ==> var id := w.selected.value; var e := w.store[id];
      && e.role.Bot? && e.role.maxAge != 0 && e.role.behavior.Some?
      && r.value[0] == NameOf(id)
      && r.value[1] == Position(Truncate(e.body.x), Truncate(e.body.y))
      && r.value[2] == Amount(e.body.energy)
      && r.value[3] == Amount(e.role.peakEnergy)
      && r.value[4] == Whole(e.role.generation)
      && r.value[5] == Day(e.body.birthday)
      && r.value[6] == AgeShare(e.body.age, Truncate(e.body.age as real / e.role.maxAge as real * 100.0))
      && r.value[7] == Whole(e.body.children)
      && r.value[8] == Whole(|e.role.behavior.value.nodes|)
    ensures w.selected.Some? ==> var e := w.store[w.selected.value];
      && (!e.role.Bot? ==> r == Err(NoAttribute))
      && (e.role.Bot? && e.role.maxAge == 0 ==> r == Err(DivisionByZero))
      && (e.role.Bot? && e.role.maxAge != 0 ==> (r.Ok? <==> e.role.behavior.Some?))
  {
    if w.selected.None? then Ok(seq(9, _ => Dash))
    else
      var id := w.selected.value;
      var e := w.store[id];
      if !e.role.Bot? then Err(NoAttribute)
      else if e.role.maxAge == 0 then Err(DivisionByZero)
      else if e.role.behavior.None? then Err(NoAttribute)
      else
        var b := e.body;
        var share := Truncate(b.age as real / e.role.maxAge as real * 100.0);
        var cells := [NameOf(id), Position(Truncate(b.x), Truncate(b.y)), Amount(b.energy), Amount(e.role.peakEnergy),
                      Whole(e.role.generation), Day(b.birthday), AgeShare(b.age, share), Whole(b.children),
                      Whole(|e.role.behavior.value.nodes|)];
        assert cells[0] != Dash;
        Ok(cells)
  }

  /** The bot panel draws value `k - 1` next to label `k` for every label after the header, so the
      polled data must cover exactly the labels; and the age cell's share is 100 at the maximum age. */
  lemma EveryBotLabelHasData(w: World, scale: int)
    requires PollData(w).Ok?
    ensures |PollData(w).value| == |PositionLabels(BotHeader, BotLabels, 7, scale)| - 1
    ensures w.selected.Some? ==> var e := w.store[w.selected.value];
      e.body.age == e.role.maxAge > 0 ==> PollData(w).value[6] == AgeShare(e.body.age, 100)
  {
    if w.selected.Some? {
      var e := w.store[w.selected.value];
      if e.body.age == e.role.maxAge > 0 {
        var m := e.role.maxAge as real;
        CancelFactor(m, 1.0);
        assert m / m == 1.0;
        assert e.body.age as real / m * 100.0 == 100.0;
      }
    }
  }
}

=== FILE: intelligence.dfy ===
/** The behaviour graph that drives a bot (intelligence.py): the registry that the `@statement` and
    `@conditional` decorators fill, node construction with its global numbering, node execution,
    edge assignment, the textual rendering of a node, and stepping the graph's cursor.

    Nodes live in an arena (`seq<Node>`) and edges are indices into it, so a graph that Python
    builds from object references is a value here, and `deepcopy` is a plain copy. A behaviour
    function is an oracle `call(state, function)` that returns the new state and the function's
    result: `None`, or `Some(b)` for a truthy (`b`) or falsy (`!b`) value. */
module Intelligence {
  import opened Basics

  /** A registered behaviour function: its identity and its `__name__`. */
  datatype Callable = Callable(key: nat, name: string)

  /** `NodeRegister`: the functions registered as statements and as conditionals, in order. */
  datatype Registry = Registry(statements: seq<Callable>, conditionals: seq<Callable>)

  const EmptyRegistry := Registry([], [])

  /** The `@statement` decorator: appends the (wrapped) function to the statement list only. */
  function RegisterStatement(reg: Registry, f: Callable): (r: Registry)
    ensures r.statements == reg.statements + [f]
    ensures r.conditionals == reg.conditionals
    ensures f in r.statements
  {
    reg.(statements := reg.statements + [f])
  }

  /** The `@conditional` decorator: appends the (wrapped) function to the conditional list only. */
  function RegisterConditional(reg: Registry, f: Callable): (r: Registry)
    ensures r.conditionals == reg.conditionals + [f]
    ensures r.statements == reg.statements
    ensures f in r.conditionals
  {
    reg.(conditionals := reg.conditionals + [f])
  }

  datatype NodeKind = StatementKind | ConditionalKind

  /** A statement node has one outgoing edge; a conditional node has two. */
  datatype Node =
    | StatementNode(number: nat, fn: Callable, nextNode: Option<nat>)
    | ConditionalNode(number: nat, fn: Callable, trueNode: Option<nat>, falseNode: Option<nat>)
  {
    function Kind(): NodeKind {
      if StatementNode? then StatementKind else ConditionalKind
    }
  }

  /** Constructing a node: the class-wide counter `BaseBehaviorNode.count` goes up by one and the
      new node takes the new count as its number; every edge starts unset. */
  function NewNode(count: nat, kind: NodeKind, f: Callable): (r: (Node, nat))
    ensures r.1 == count + 1
    ensures r.0.number == r.1
    ensures r.0.fn == f && r.0.Kind() == kind
    ensures r.0.StatementNode? ==> r.0.nextNode.None?
    ensures r.0.ConditionalNode? ==> r.0.trueNode.None? && r.0.falseNode.None?
  {
    match kind
    case StatementKind => (StatementNode(count + 1, f, None), count + 1)
    case ConditionalKind => (ConditionalNode(count + 1, f, None, None), count + 1)
  }

  /** Constructing several nodes one after another, threading the class-wide counter. */
  function NewNodes(count: nat, specs: seq<(NodeKind, Callable)>): (r: (seq<Node>, nat))
    ensures |r.0| == |specs|
    ensures r.1 == count + |specs|
    ensures forall i | 0 <= i < |r.0| :: count < r.0[i].number <= r.1
    ensures forall i, j | 0 <= i < j < |r.0| :: r.0[i].number < r.0[j].number
    ensures forall i | 0 <= i < |r.0| :: r.0[i].fn == specs[i].1 && r.0[i].Kind() == specs[i].0
    decreases |specs|
  {
    if |specs| == 0 then ([], count)
    else
      var (first, c1) := NewNode(count, specs[0].0, specs[0].1);
      var (rest, c2) := NewNodes(c1, specs[1..]);
      ([first] + rest, c2)
  }

  predicate EdgeIn(e: Option<nat>, n: nat) {
    e.None? || e.value < n
  }

  predicate NodeEdgesIn(node: Node, n: nat) {
    match node
    case StatementNode(_, _, next) => EdgeIn(next, n)
    case ConditionalNode(_, _, t, f) => EdgeIn(t, n) && EdgeIn(f, n)
  }

  /** `BehaviorGraph`: the node list and the cursor `current_behavior_node`. */
  datatype BehaviorGraph = BehaviorGraph(nodes: seq<Node>, current: Option<nat>)

  /** Every edge and the cursor name a node of the arena (a Python reference always resolves). */
  predicate WellFormed(g: BehaviorGraph) {
    && EdgeIn(g.current, |g.nodes|)
    && forall i | 0 <= i < |g.nodes| :: NodeEdgesIn(g.nodes[i], |g.nodes|)
  }

  type Graph = g: BehaviorGraph | WellFormed(g) witness BehaviorGraph([], None)

  /** `BehaviorGraph()`: no nodes and no current node. */
  const EmptyGraph: Graph := BehaviorGraph([], None)

  /** The edges a node may hand the cursor to. */
  function Successors(node: Node): set<Option<nat>> {
    match node
    case StatementNode(_, _, next) => {next}
    case ConditionalNode(_, _, t, f) => {t, f}
  }

  /** `StatementNode.execute` / `ConditionalNode.execute`: call the bound function once, then pick
      the edge. A conditional whose function returns None raises ValueError. */
  function Execute<S>(node: Node, s: S, call: (S, Callable) -> (S, Option<bool>)): (r: Result<(Option<nat>, S)>)
    ensures r.Ok? ==> r.value.1 == call(s, node.fn).0
    ensures r.Ok? ==> r.value.0 in Successors(node)
    ensures node.StatementNode? ==> r.Ok? && r.value.0 == node.nextNode
    ensures node.ConditionalNode? ==> (r.Err? <==> call(s, node.fn).1.None?)
    ensures r.Err? ==> r.error == ConditionalReturnedNone
    ensures node.ConditionalNode? && r.Ok? ==>
              r.value.0 == (if call(s, node.fn).1.value then node.trueNode else node.falseNode)
  {
    var (s', answer) := call(s, node.fn);
    match node
    case StatementNode(_, _, next) => Ok((next, s'))
    case ConditionalNode(_, _, t, f) =>
      if answer.None? then Err(ConditionalReturnedNone)
      else if answer.value then Ok((t, s'))
      else Ok((f, s'))
  }

  /** `BehaviorGraph.step`: fails when there is no current node, otherwise executes the current node
      and moves the cursor to the edge it returns. The node list is never touched. */
  function Step<S>(g: Graph, s: S, call: (S, Callable) -> (S, Option<bool>)): (r: Result<(Graph, S)>)
    ensures g.current.None? ==> r == Err(NoCurrentNode)
    ensures r.Ok? ==> r.value.0.nodes == g.nodes
    ensures r.Ok? ==> g.current.Some? && r.value.0.current in Successors(g.nodes[g.current.value])
    ensures r.Ok? ==> r.value.1 == call(s, g.nodes[g.current.value].fn).0
    ensures g.current.Some? ==> (r.Err? <==> Execute(g.nodes[g.current.value], s, call).Err?)
    ensures g.current.Some? && r.Ok? ==> r.value.0.current == Execute(g.nodes[g.current.value], s, call).value.0
  {
    if g.current.None? then Err(NoCurrentNode)
    else
      var node := g.nodes[g.current.value];
      var (next, s') :- Execute(node, s, call);
      assert NodeEdgesIn(node, |g.nodes|);
      var g': Graph := g.(current := next);
      Ok((g', s'))
  }

  /** `n` successive steps of the same graph against an evolving state. */
  function Run<S>(g: Graph, s: S, call: (S, Callable) -> (S, Option<bool>), n: nat): Result<(Graph, S)>
    decreases n
  {
    if n == 0 then Ok((g, s))
    else
      var (g', s') :- Step(g, s, call);
      Run(g', s', call, n - 1)
  }

  /** Every node has all its edges set. */
  predicate AllEdgesSet(g: Graph) {
    forall i | 0 <= i < |g.nodes| :: NodeSet(g.nodes[i])
  }

  predicate NodeSet(node: Node) {
    match node
    case StatementNode(_, _, next) => next.Some?
    case ConditionalNode(_, _, t, f) => t.Some? && f.Some?
  }

  /** A graph whose every edge is set, started on a node, never fails as long as the conditional
      functions never answer None: any number of steps succeeds and keeps the node list. */
  lemma {:induction false} RunNeverFails<S>(g: Graph, s: S, call: (S, Callable) -> (S, Option<bool>), n: nat)
    requires AllEdgesSet(g) && g.current.Some?
    requires forall t: S, f: Callable :: call(t, f).1.Some?
    ensures Run(g, s, call, n).Ok?
    ensures Run(g, s, call, n).value.0.nodes == g.nodes
    ensures Run(g, s, call, n).value.0.current.Some?
    decreases n
  {
    if n > 0 {
      var node := g.nodes[g.current.value];
      assert NodeSet(node);
      var r := Step(g, s, call);
      assert call(s, node.fn).1.Some?;
      assert r.Ok?;
      var (g', s') := r.value;
      assert g'.current in Successors(node);
      RunNeverFails(g', s', call, n - 1);
    }
  }

  /** A step that leaves the cursor on an unset edge makes the following step fail. */
  lemma UnsetEdgeFailsNextStep<S>(g: Graph, s: S, call: (S, Callable) -> (S, Option<bool>))
    requires Step(g, s, call).Ok? && Step(g, s, call).value.0.current.None?
    ensures Run(g, s, call, 2) == Err(NoCurrentNode)
  {
    var (g', s') := Step(g, s, call).value;
    assert Run(g', s', call, 1) == Err(NoCurrentNode);
  }

  /** `StatementNode.assign_edge`: sets `next_node` and nothing else. */
  function AssignEdge(g: Graph, i: nat, next: Option<nat>): (r: Graph)
    requires i < |g.nodes| && g.nodes[i].StatementNode?
    requires EdgeIn(next, |g.nodes|)
    ensures |r.nodes| == |g.nodes| && r.current == g.current
    ensures r.nodes[i].StatementNode? && r.nodes[i].nextNode == next
    ensures r.nodes[i].number == g.nodes[i].number && r.nodes[i].fn == g.nodes[i].fn
    ensures forall j | 0 <= j < |g.nodes| && j != i :: r.nodes[j] == g.nodes[j]
  {
    var nodes := g.nodes[i := g.nodes[i].(nextNode := next)];
    assert forall j | 0 <= j < |nodes| :: NodeEdgesIn(nodes[j], |nodes|) by {
      forall j | 0 <= j < |nodes|
        ensures NodeEdgesIn(nodes[j], |nodes|)
      {
        if j != i {
          assert NodeEdgesIn(g.nodes[j], |g.nodes|);
        }
      }
    }
    g.(nodes := nodes)
  }

  /** `ConditionalNode.assign_edges`: sets exactly `true_node` and `false_node`. */
  function AssignEdges(g: Graph, i: nat, onTrue: Option<nat>, onFalse: Option<nat>): (r: Graph)
    requires i < |g.nodes| && g.nodes[i].ConditionalNode?
    requires EdgeIn(onTrue, |g.nodes|) && EdgeIn(onFalse, |g.nodes|)
    ensures |r.nodes| == |g.nodes| && r.current == g.current
    ensures r.nodes[i].ConditionalNode? && r.nodes[i].trueNode == onTrue && r.nodes[i].falseNode == onFalse
    ensures r.nodes[i].number == g.nodes[i].number && r.nodes[i].fn == g.nodes[i].fn
    ensures forall j | 0 <= j < |g.nodes| && j != i :: r.nodes[j] == g.nodes[j]
  {
    var nodes := g.nodes[i := g.nodes[i].(trueNode := onTrue, falseNode := onFalse)];
    assert forall j | 0 <= j < |nodes| :: NodeEdgesIn(nodes[j], |nodes|) by {
      forall j | 0 <= j < |nodes|
        ensures NodeEdgesIn(nodes[j], |nodes|)
      {
        if j != i {
          assert NodeEdgesIn(g.nodes[j], |g.nodes|);
        }
      }
    }
    g.(nodes := nodes)
  }

  /** After `assign_edge`, stepping from that statement lands on the assigned node, whatever the
      function does. */
  lemma AssignedEdgeIsFollowed<S>(g: Graph, i: nat, next: Option<nat>, s: S, call: (S, Callable) -> (S, Option<bool>))
    requires i < |g.nodes| && g.nodes[i].StatementNode? && EdgeIn(next, |g.nodes|)
    requires g.current == Some(i)
    ensures Step(AssignEdge(g, i, next), s, call).Ok?
    ensures Step(AssignEdge(g, i, next), s, call).value.0.current == next
  {
  }

  /** After `assign_edges`, a truthy answer leads to the assigned true node and a falsy one to the
      assigned false node. */
  lemma AssignedBranchesAreFollowed<S>(g: Graph, i: nat, t: Option<nat>, f: Option<nat>, s: S,
                                       call: (S, Callable) -> (S, Option<bool>))
    requires i < |g.nodes| && g.nodes[i].ConditionalNode?
    requires EdgeIn(t, |g.nodes|) && EdgeIn(f, |g.nodes|)
    requires g.current == Some(i)
    requires call(s, g.nodes[i].fn).1.Some?
    ensures Step(AssignEdges(g, i, t, f), s, call).Ok?
    ensures Step(AssignEdges(g, i, t, f), s, call).value.0.current
            == if call(s, g.nodes[i].fn).1.value then t else f
  {
    var g' := AssignEdges(g, i, t, f);
    assert g'.nodes[i].fn == g.nodes[i].fn;
  }

  /** `return_tree_copy`: `deepcopy` of the graph. Nodes keep their numbers and function bindings,
      edges keep their targets, and the cursor stays on the same node; as a value the copy shares
      nothing with the original. */
  function ReturnTreeCopy(g: Graph): (r: Graph)
    ensures |r.nodes| == |g.nodes|
    ensures forall i | 0 <= i < |g.nodes| :: r.nodes[i] == g.nodes[i]
    ensures r.current == g.current
  {
    BehaviorGraph(g.nodes[..], g.current)
  }

  /** `<number>_<function name>`, the name a node goes by in `__str__`. */
  function Label(node: Node): string {
    NatToString(node.number) + "_" + node.fn.name
  }

  function EdgeName(g: Graph, e: Option<nat>): string
    requires EdgeIn(e, |g.nodes|)
  {
    if e.None? then "None" else Label(g.nodes[e.value])
  }

  /** `__str__`: `"<n>_<f> -> <m>_<g>"` for a statement, `"<n>_<f> ? <T> : <F>"` for a
      conditional, with `None` standing for an unset edge. */
  function Render(g: Graph, i: nat): (r: string)
    requires i < |g.nodes|
    ensures |Label(g.nodes[i])| <= |r| && r[..|Label(g.nodes[i])|] == Label(g.nodes[i])
    ensures g.nodes[i].StatementNode? ==> var next := g.nodes[i].nextNode;
      r == Label(g.nodes[i]) + " -> " + (if next.None? then "None" else Label(g.nodes[next.value]))
    ensures g.nodes[i].ConditionalNode? ==> var t, f := g.nodes[i].trueNode, g.nodes[i].falseNode;
      r == Label(g.nodes[i]) + " ? " + (if t.None? then "None" else Label(g.nodes[t.value]))
                             + " : " + (if f.None? then "None" else Label(g.nodes[f.value]))
  {
    var node := g.nodes[i];
    assert NodeEdgesIn(node, |g.nodes|);
    match node
    case StatementNode(_, _, next) =>
      Label(node) + " -> " + EdgeName(g, next)
    case ConditionalNode(_, _, t, f) =>
      Label(node) + " ? " + EdgeName(g, t) + " : " + EdgeName(g, f)
  }

  /** The longest prefix of decimal digits. */
  function LeadingDigits(s: string): (r: string)
    ensures AllDigits(r)
    ensures |r| <= |s| && r == s[..|r|]
  {
    if |s| == 0 || !IsDigit(s[0]) then "" else [s[0]] + LeadingDigits(s[1..])
  }

  lemma {:induction false} LeadingDigitsOfPrefix(a: string, b: string)
    requires AllDigits(a)
    requires |b| > 0 && !IsDigit(b[0])
    ensures LeadingDigits(a + b) == a
    decreases |a|
  {
    if |a| == 0 {
      assert a + b == b;
    } else {
      assert (a + b)[0] == a[0];
      assert (a + b)[1..] == a[1..] + b;
      LeadingDigitsOfPrefix(a[1..], b);
    }
  }

  /** A string that starts with the decimal rendering of `n` and then an underscore reads back `n`
      from its leading digits. */
  lemma NumberPrefix(s: string, n: nat)
    requires |NatToString(n)| < |s| && s[..|NatToString(n)|] == NatToString(n) && s[|NatToString(n)|] == '_'
    ensures ParseNat(LeadingDigits(s)) == n
  {
    var digits := NatToString(n);
    var rest := s[|digits|..];
    assert s == digits + rest;
    LeadingDigitsOfPrefix(digits, rest);
    ParseNatToString(n);
  }

  /** The node number can be read back from the front of a node's rendering. */
  lemma RenderStartsWithNumber(g: Graph, i: nat)
    requires i < |g.nodes|
    ensures ParseNat(LeadingDigits(Render(g, i))) == g.nodes[i].number
  {
    var node := g.nodes[i];
    var digits := NatToString(node.number);
    var tag := Label(node);
    var r := Render(g, i);
    assert tag == digits + ("_" + node.fn.name);
    assert tag[..|digits|] == digits && tag[|digits|] == '_';
    assert r[..|tag|] == tag;
    assert r[..|digits|] == tag[..|digits|];
    assert r[|digits|] == tag[|digits|];
    NumberPrefix(r, node.number);
  }

  /** A statement's rendering names its successor: after the node's own label and `" -> "`, the
      successor's number reads back from the leading digits, and an unset edge reads `None`. */
  lemma RenderNamesSuccessor(g: Graph, i: nat)
    requires i < |g.nodes| && g.nodes[i].StatementNode?
    ensures var r, k := Render(g, i), |Label(g.nodes[i])| + 4;
      && k <= |r|
      && (g.nodes[i].nextNode.None? ==> r[k..] == "None")
      && (g.nodes[i].nextNode.Some? ==> ParseNat(LeadingDigits(r[k..])) == g.nodes[g.nodes[i].nextNode.value].number)
  {
    var node := g.nodes[i];
    var r := Render(g, i);
    var head := Label(node) + " -> ";
    assert NodeEdgesIn(node, |g.nodes|);
    var tail := EdgeName(g, node.nextNode);
    assert r == head + tail;
    assert r[|head|..] == tail;
    if node.nextNode.Some? {
      var succ := g.nodes[node.nextNode.value];
      var digits := NatToString(succ.number);
      assert tail == digits + ("_" + succ.fn.name);
      assert tail[..|digits|] == digits && tail[|digits|] == '_';
      NumberPrefix(tail, succ.number);
    }
  }

  /** Two nodes with different numbers never render to the same text. */
  lemma DistinctNumbersRenderDistinctly(g: Graph, i: nat, j: nat)
    requires i < |g.nodes| && j < |g.nodes|
    requires g.nodes[i].number != g.nodes[j].number
    ensures Render(g, i) != Render(g, j)
  {
    RenderStartsWithNumber(g, i);
    RenderStartsWithNumber(g, j);
  }
}

=== FILE: ledger.dfy ===
/** The energy ledger of world.py: `give_energy_to_entity`, `drain_energy_from_entity` and
    `transfer_energy_between_entities`, stated on the pool (`None` for an unlimited one) and the
    bodies involved. Each operation returns whether it was accepted. */
module Ledger {
  import opened Basics
  import opened Entities

  datatype Grant = Grant(pool: Option<real>, body: Body, ok: bool)

  datatype Exchange = Exchange(donor: Body, recipient: Body, ok: bool)

  /** Only the energy and the dead flag of a body may change. */
  predicate SameButVitals(a: Body, b: Body) {
    a == b.(energy := a.energy, dead := a.dead)
  }

  /** `give_energy_to_entity`: a negative amount is refused. With a finite pool the amount is
      capped at what the pool holds and the pool is debited by what the entity receives. */
  function Give(pool: Option<real>, amount: real, b: Body): (r: Grant)
    ensures amount < 0.0 ==> r == Grant(pool, b, false)
    ensures amount >= 0.0 ==> r.ok
    ensures r.body == b.(energy := r.body.energy)
    ensures pool.None? ==> r.pool.None?
    ensures pool.None? && amount >= 0.0 ==> r.body.energy == b.energy + amount
    ensures pool.Some? ==> r.pool.Some? && r.pool.value + r.body.energy == pool.value + b.energy
    ensures pool.Some? && amount >= 0.0 ==> r.body.energy == b.energy + Min(amount, pool.value)
    ensures pool.Some? && pool.value >= 0.0 ==> r.pool.value >= 0.0 && r.body.energy >= b.energy
  {
    if amount >= 0.0 then
      var given := if pool.Some? && pool.value < amount then pool.value else amount;
      var pool' := if pool.Some? then Some(pool.value - given) else None;
      Grant(pool', b.(energy := b.energy + given), true)
    else
      Grant(pool, b, false)
  }

  /** `drain_energy_from_entity`: a negative amount is refused. Draining at least everything the
      entity holds leaves it at zero and dead; otherwise the amount is removed and the dead flag is
      left alone. A finite pool is credited with exactly what was removed. */
  function Drain(pool: Option<real>, amount: real, b: Body): (r: Grant)
    ensures amount < 0.0 ==> r == Grant(pool, b, false)
    ensures amount >= 0.0 ==> r.ok
    ensures SameButVitals(r.body, b)
    ensures amount >= 0.0 && b.energy <= amount ==> r.body.energy == 0.0 && r.body.dead
    ensures amount >= 0.0 && b.energy > amount ==> r.body.energy == b.energy - amount && r.body.dead == b.dead
    ensures pool.None? ==> r.pool.None?
    ensures pool.Some? ==> r.pool.Some? && r.pool.value + r.body.energy == pool.value + b.energy
  {
    if amount >= 0.0 then
      var drained := if b.energy <= amount then b.energy else amount;
      var dead := if b.energy <= amount then true else b.dead;
      var pool' := if pool.Some? then Some(pool.value + drained) else None;
      Grant(pool', b.(energy := b.energy - drained, dead := dead), true)
    else
      Grant(pool, b, false)
  }

  /** `transfer_energy_between_entities` between two distinct entities: refused when either is
      already dead. Otherwise the donor gives the amount, capped at what it holds, and dies when it
      held no more than the amount (so even a zero transfer kills a donor with no energy). The
      pool is not involved. */
  function Transfer(amount: real, donor: Body, recipient: Body): (r: Exchange)
    ensures donor.dead || recipient.dead ==> r == Exchange(donor, recipient, false)
    ensures !donor.dead && !recipient.dead ==> r.ok
    ensures SameButVitals(r.donor, donor) && SameButVitals(r.recipient, recipient)
    ensures r.donor.energy + r.recipient.energy == donor.energy + recipient.energy
    ensures r.recipient.dead == recipient.dead
    ensures r.ok ==> (r.donor.dead <==> donor.energy <= amount)
    ensures r.ok ==> r.recipient.energy == recipient.energy + Min(amount, donor.energy)
  {
    if recipient.dead || donor.dead then Exchange(donor, recipient, false)
    else
      var moved := if donor.energy <= amount then donor.energy else amount;
      var dead := donor.energy <= amount;
      Exchange(donor.(energy := donor.energy - moved, dead := dead),
               recipient.(energy := recipient.energy + moved), true)
  }

  /** `transfer_energy_between_entities` with the same object as donor and recipient: the energy
      taken from the donor comes straight back, but the donor's death rule still applies. */
  function TransferToSelf(amount: real, b: Body): (r: Grant)
    ensures b.dead ==> r == Grant(None, b, false)
    ensures !b.dead ==> r.ok && r.body == b.(dead := b.energy <= amount)
  {
    if b.dead then Grant(None, b, false)
    else
      var t := Transfer(amount, b, b);
      Grant(None, b.(dead := t.donor.dead), true)
  }
}

=== FILE: prototype.dfy ===
/** The first prototype of the simulation (simulation.py): a node-type registry, behaviour nodes
    that pick their successor, the tree cursor, plants that grow, reproduce and age, and the world
    pass that executes every plant and drops the dead ones.

    The prototype's `Bot.execute` calls the tree without the bot, so a bot can never be executed;
    the world pass reports that as an error after the plants are done. The random draws of plant
    reproduction are parameters. */
module Prototype {
  import opened Basics
  import Intelligence
  import WorldModel

  /** `NodeRegister.statement` and `NodeRegister.conditional`. */
  datatype NodeType = Statement | Conditional

  /** `BehaviorNode._assign_node_type`: the statement list is searched first, then the conditional
      list; a function in neither raises LookupError. */
  function AssignNodeType(reg: Intelligence.Registry, f: Intelligence.Callable): (r: Result<NodeType>)
    ensures r.Ok? <==> f in reg.statements || f in reg.conditionals
    ensures r == Ok(Conditional) ==> f in reg.conditionals && f !in reg.statements
    ensures r.Err? ==> r.error == Unregistered
  {
    if f in reg.statements then Ok(Statement)
    else if f in reg.conditionals then Ok(Conditional)
    else Err(Unregistered)
  }

  /** A function decorated both ways is a statement, in whichever order the decorators ran; one
      decorated only by `@conditional` is a conditional. */
  lemma StatementsTakePriority(reg: Intelligence.Registry, f: Intelligence.Callable)
    ensures AssignNodeType(Intelligence.RegisterConditional(Intelligence.RegisterStatement(reg, f), f), f) == Ok(Statement)
    ensures AssignNodeType(Intelligence.RegisterStatement(Intelligence.RegisterConditional(reg, f), f), f) == Ok(Statement)
    ensures f !in reg.statements ==> AssignNodeType(Intelligence.RegisterConditional(reg, f), f) == Ok(Conditional)
    ensures AssignNodeType(Intelligence.EmptyRegistry, f) == Err(Unregistered)
  {
  }

  /** `BehaviorNode`: the bound function, its type, and three edges into the tree's node list. */
  datatype PNode = PNode(fn: Intelligence.Callable, nodeType: NodeType,
                         nextNode: Option<nat>, trueNode: Option<nat>, falseNode: Option<nat>)

  /** `BehaviorNode(function)`: the type is fixed at construction, so constructing a node for an
      unregistered function raises; every edge starts unset. */
  function NewPNode(reg: Intelligence.Registry, f: Intelligence.Callable): (r: Result<PNode>)
    ensures r.Ok? <==> f in reg.statements || f in reg.conditionals
    ensures r.Ok? ==> r.value.fn == f && (r.value.nodeType == Statement <==> f in reg.statements)
    ensures r.Ok? ==> r.value.nextNode.None? && r.value.trueNode.None? && r.value.falseNode.None?
    ensures r.Err? ==> r.error == Unregistered
  {
    var t :- AssignNodeType(reg, f);
    Ok(PNode(f, t, None, None, None))
  }

  /** `BehaviorNode.execute`: the function runs once; a statement hands over its next node, a
      conditional its true node on a truthy answer and its false node otherwise, None included. */
  function PExecute<S>(node: PNode, s: S, call: (S, Intelligence.Callable) -> (S, Option<bool>)): (r: (Option<nat>, S))
    ensures r.1 == call(s, node.fn).0
    ensures node.nodeType == Statement ==> r.0 == node.nextNode
    ensures node.nodeType == Conditional ==> r.0 == node.trueNode || r.0 == node.falseNode
    ensures node.nodeType == Conditional && call(s, node.fn).1 != Some(true) ==> r.0 == node.falseNode
  {
    var (s', answer) := call(s, node.fn);
    match node.nodeType
    case Statement => (node.nextNode, s')
    case Conditional => (if answer == Some(true) then node.trueNode else node.falseNode, s')
  }

  /** The node of the later behaviour graph (intelligence.py) that has the same function and edges. */
  function ToNode(node: PNode, number: nat): Intelligence.Node {
    match node.nodeType
    case Statement => Intelligence.StatementNode(number, node.fn, node.nextNode)
    case Conditional => Intelligence.ConditionalNode(number, node.fn, node.trueNode, node.falseNode)
  }

  /** The prototype node and the later graph node agree on every step except one: when a
      conditional's function answers None, the prototype takes the false branch where the later
      graph raises ValueError. */
  lemma NodeAgreesWithGraphNode<S>(node: PNode, number: nat, s: S, call: (S, Intelligence.Callable) -> (S, Option<bool>))
    ensures node.nodeType == Statement || call(s, node.fn).1.Some? ==>
              Intelligence.Execute(ToNode(node, number), s, call) == Ok(PExecute(node, s, call))
    ensures node.nodeType == Conditional && call(s, node.fn).1.None? ==>
              Intelligence.Execute(ToNode(node, number), s, call).Err? && PExecute(node, s, call).0 == node.falseNode
  {
  }

  /** `BehaviorTree`: its nodes and the cursor `current_behavior_node`. */
  datatype PTree = PTree(nodes: seq<PNode>, current: Option<nat>)

  /** Every edge and the cursor name a node of the list (a Python reference always resolves). */
  predicate TreeFormed(t: PTree) {
    && Intelligence.EdgeIn(t.current, |t.nodes|)
    && forall i | 0 <= i < |t.nodes| ::
         && Intelligence.EdgeIn(t.nodes[i].nextNode, |t.nodes|)
         && Intelligence.EdgeIn(t.nodes[i].trueNode, |t.nodes|)
         && Intelligence.EdgeIn(t.nodes[i].falseNode, |t.nodes|)
  }

  type Tree = t: PTree | TreeFormed(t) witness PTree([], None)

  /** `BehaviorTree.execute`: raises ValueError without a current node, otherwise executes it and
      moves the cursor to the node it hands over. */
  function TreeExecute<S>(t: Tree, s: S, call: (S, Intelligence.Callable) -> (S, Option<bool>)): (r: Result<(Tree, S)>)
    ensures r.Err? <==> t.current.None?
    ensures r.Err? ==> r.error == NoCurrentNode
    ensures r.Ok? ==> var node := t.nodes[t.current.value];
      && r.value.0.nodes == t.nodes
      && r.value.0.current == PExecute(node, s, call).0
      && r.value.1 == call(s, node.fn).0
  {
    if t.current.None? then Err(NoCurrentNode)
    else
      var node := t.nodes[t.current.value];
      var (next, s') := PExecute(node, s, call);
      var t': Tree := t.(current := next);
      Ok((t', s'))
  }

  /** The later behaviour graph with the same nodes, each numbered by its position. */
  function ToGraph(t: Tree): (g: Intelligence.Graph)
    ensures |g.nodes| == |t.nodes| && g.current == t.current
  {
    var nodes := seq(|t.nodes|, i requires 0 <= i < |t.nodes| => ToNode(t.nodes[i], i));
    assert forall i | 0 <= i < |nodes| :: Intelligence.NodeEdgesIn(nodes[i], |nodes|);
    Intelligence.BehaviorGraph(nodes, t.current)
  }

  /** Stepping a prototype tree is stepping the later graph built from it, as long as no
      conditional answers None. */
  lemma TreeAgreesWithGraph<S>(t: Tree, s: S, call: (S, Intelligence.Callable) -> (S, Option<bool>))
    requires t.current.Some?
    requires var node := t.nodes[t.current.value]; node.nodeType == Statement || call(s, node.fn).1.Some?
    ensures TreeExecute(t, s, call).Ok?
    ensures var (t', s') := TreeExecute(t, s, call).value;
      Intelligence.Step(ToGraph(t), s, call) == Ok((ToGraph(t'), s'))
  {
    var i := t.current.value;
    NodeAgreesWithGraphNode(t.nodes[i], i, s, call);
    var (t', s') := TreeExecute(t, s, call).value;
    assert ToGraph(t').nodes == ToGraph(t).nodes;
  }

  /** The prototype plant's fixed settings. */
  const MaxAge: int := 1000
  const MaxEnergy: real := 200.0
  const GrowthRate: real := 1.0
  const ChildInvestment: real := 20.0
  const ReproductionChance: int := 2

  /** A prototype `Plant`: position, energy, death flag and age; its settings are the constants. */
  datatype PPlant = PPlant(x: real, y: real, energy: real, dead: bool, age: int)

  /** `Plant(x, y, energy)`: alive and of age 0. */
  function NewPPlant(x: real, y: real, energy: real): PPlant {
    PPlant(x, y, energy, false, 0)
  }

  /** The random draws of one reproduction check: `randint(0, 100)` and the child's position. */
  datatype Draw = Draw(roll: int, childX: real, childY: real)

  /** `Plant.check_reproduction`: with energy at least 180 and a roll below 2, the parent pays 20
      and a baby holding exactly those 20 is offered to the world. The baby stands at the drawn
      point itself: this prototype measures the spore's flight from the origin, not from the
      parent. */
  function CheckReproduction(p: PPlant, d: Draw): (r: (PPlant, Option<PPlant>))
    ensures r.1.Some? <==> p.energy >= MaxEnergy - ChildInvestment && d.roll < ReproductionChance
    ensures r.1.None? ==> r.0 == p
    ensures r.1.Some? ==> var baby := r.1.value;
      && r.0 == p.(energy := r.0.energy)
      && r.0.energy + baby.energy == p.energy && baby.energy == ChildInvestment
      && baby.x == d.childX && baby.y == d.childY && baby.age == 0 && !baby.dead
  {
    if p.energy >= MaxEnergy - ChildInvestment && d.roll < ReproductionChance then
      (p.(energy := p.energy - ChildInvestment), Some(NewPPlant(d.childX, d.childY, ChildInvestment)))
    else
      (p, None)
  }

  /** `Plant.execute`: grow by 1 below the cap, check reproduction, die once older than 1000, age
      by one. A plant below 201 units stays below 201. */
  function PlantExecute(p: PPlant, d: Draw): (r: (PPlant, Option<PPlant>))
    ensures r.0.age == p.age + 1 && r.0.x == p.x && r.0.y == p.y
    ensures r.0.dead <==> p.dead || p.age > MaxAge
    ensures var grown := if p.energy < MaxEnergy then p.energy + GrowthRate else p.energy;
      && (r.1.None? ==> r.0.energy == grown)
      && (r.1.Some? ==> r.0.energy + r.1.value.energy == grown && r.1.value.energy == ChildInvestment)
    ensures r.1.Some? ==> r.1.value.age == 0 && !r.1.value.dead && d.roll < ReproductionChance
    ensures p.energy < MaxEnergy + GrowthRate ==> r.0.energy < MaxEnergy + GrowthRate
  {
    var grown := if p.energy < MaxEnergy then p.(energy := p.energy + GrowthRate) else p;
    var (p', baby) := CheckReproduction(grown, d);
    (p'.(dead := p'.dead || p'.age > MaxAge, age := p'.age + 1), baby)
  }

  /** A prototype `Bot`: position, energy, death flag and its optional tree. */
  datatype PBot = PBot(x: real, y: real, energy: real, dead: bool, tree: Option<Tree>)

  /** The prototype `World`. */
  datatype PWorld = PWorld(bots: seq<PBot>, plants: seq<PPlant>, botLimit: Option<int>, plantLimit: Option<int>)

  /** The refusal test of `World.add_plant`: a truthy limit that the list already EXCEEDS. */
  predicate Refuses(limit: Option<int>, count: nat) {
    WorldModel.Truthy(limit) && count > limit.value
  }

  /** `World.add_plant`: refused with False when the list already holds more plants than a truthy
      limit; otherwise the plant is appended and the call returns None. */
  function AddPlant(w: PWorld, p: PPlant): (r: (PWorld, Option<bool>))
    ensures r.1 == Some(false) <==> WorldModel.Truthy(w.plantLimit) && |w.plants| > w.plantLimit.value
    ensures r.1 == Some(false) || r.1 == None
    ensures r.1 == Some(false) ==> r.0 == w
    ensures r.1.None? ==> r.0 == w.(plants := w.plants + [p])
  {
    if Refuses(w.plantLimit, |w.plants|) then (w, Some(false)) else (w.(plants := w.plants + [p]), None)
  }

  /** The prototype's limit lets one plant more in than it names: a world holding exactly `n` plants
      under limit `n` still accepts one, and only then refuses. The later world refuses already at
      `n`. */
  lemma AddPlantOverfills(w: PWorld, p: PPlant, q: PPlant)
    requires w.plantLimit.Some? && w.plantLimit.value > 0 && |w.plants| == w.plantLimit.value
    ensures AddPlant(w, p).1.None? && |AddPlant(w, p).0.plants| == w.plantLimit.value + 1
    ensures AddPlant(AddPlant(w, p).0, q).1 == Some(false)
    ensures !WorldModel.Admits(w.plantLimit, |w.plants|)
  {
  }

  /** The plant half of `World.execute`. The snapshot is split into `done` (executed and still
      listed, in order) and `rest` (still to execute); `babies` are the plants accepted during this
      pass. The live list is always `done + rest + babies`, so its length is what `add_plant`
      tests. `i` is the snapshot position of `rest[0]` and picks its draw. Returns the executed
      plants still listed and the accepted babies, which follow them in the list. */
  function SweepPlants(done: seq<PPlant>, rest: seq<PPlant>, babies: seq<PPlant>, limit: Option<int>,
                       draws: nat -> Draw, i: nat): (r: (seq<PPlant>, seq<PPlant>))
    ensures done <= r.0 && babies <= r.1
    ensures |r.0| <= |done| + |rest| && |r.1| <= |babies| + |rest|
    ensures var listed := |done| + |rest| + |babies|;
      WorldModel.Truthy(limit) ==>
        |r.0| + |r.1| <= (if listed > limit.value + 1 then listed else limit.value + 1)
    decreases |rest|
  {
    if |rest| == 0 then (done, babies)
    else
      var (p, baby) := PlantExecute(rest[0], draws(i));
      var listed := |done| + |rest| + |babies|;
      var babies' := if baby.Some? && !Refuses(limit, listed) then babies + [baby.value] else babies;
      var done' := if p.dead then done else done + [p];
      SweepPlants(done', rest[1..], babies', limit, draws, i + 1)
  }

  /** Everything the pass adds to `done` is alive, and every baby it accepts is alive, of age 0
      and holds the investment. */
  lemma {:induction false} SweepKeepsOnlyLive(done: seq<PPlant>, rest: seq<PPlant>, babies: seq<PPlant>,
                                              limit: Option<int>, draws: nat -> Draw, i: nat)
    ensures var r := SweepPlants(done, rest, babies, limit, draws, i);
      && (forall q | q in r.0 :: q in done || !q.dead)
      && (forall q | q in r.1 :: q in babies || (!q.dead && q.age == 0 && q.energy == ChildInvestment))
    decreases |rest|
  {
    if |rest| > 0 {
      var (p, baby) := PlantExecute(rest[0], draws(i));
      var listed := |done| + |rest| + |babies|;
      var babies' := if baby.Some? && !Refuses(limit, listed) then babies + [baby.value] else babies;
      var done' := if p.dead then done else done + [p];
      SweepKeepsOnlyLive(done', rest[1..], babies', limit, draws, i + 1);
    }
  }

  /** A plant after its execution, if it is still alive. */
  function Kept(p: PPlant, d: Draw): seq<PPlant> {
    var q := PlantExecute(p, d).0;
    if q.dead then [] else [q]
  }

  /** The plants of a snapshot that survive their execution, executed, in order: the reference for
      a pass in which no plant reproduces. */
  function Survivors(rest: seq<PPlant>, draws: nat -> Draw, i: nat): seq<PPlant>
    decreases |rest|
  {
    if |rest| == 0 then [] else Kept(rest[0], draws(i)) + Survivors(rest[1..], draws, i + 1)
  }

  /** One step of a pass whose plant does not reproduce: it only moves the plant to `done`. */
  lemma BarrenStep(done: seq<PPlant>, rest: seq<PPlant>, babies: seq<PPlant>, limit: Option<int>,
                   draws: nat -> Draw, i: nat)
    requires |rest| > 0 && draws(i).roll >= ReproductionChance
    ensures SweepPlants(done, rest, babies, limit, draws, i)
            == SweepPlants(done + Kept(rest[0], draws(i)), rest[1..], babies, limit, draws, i + 1)
  {
    var (p, baby) := PlantExecute(rest[0], draws(i));
    assert baby.None?;
    assert done + Kept(rest[0], draws(i)) == if p.dead then done else done + [p];
  }

  /** When no roll allows reproduction, the pass keeps the executed survivors in snapshot order and
      accepts no baby. */
  lemma {:induction false} BarrenPassKeepsOrder(done: seq<PPlant>, rest: seq<PPlant>, babies: seq<PPlant>,
                                                limit: Option<int>, draws: nat -> Draw, i: nat)
    requires forall j: nat | j >= i :: draws(j).roll >= ReproductionChance
    ensures SweepPlants(done, rest, babies, limit, draws, i) == (done + Survivors(rest, draws, i), babies)
    decreases |rest|
  {
    if |rest| > 0 {
      var head := Kept(rest[0], draws(i));
      calc {
        SweepPlants(done, rest, babies, limit, draws, i);
        { BarrenStep(done, rest, babies, limit, draws, i); }
        SweepPlants(done + head, rest[1..], babies, limit, draws, i + 1);
        { BarrenPassKeepsOrder(done + head, rest[1..], babies, limit, draws, i + 1); }
        ((done + head) + Survivors(rest[1..], draws, i + 1), babies);
        { assert (done + head) + Survivors(rest[1..], draws, i + 1) == done + Survivors(rest, draws, i); }
        (done + Survivors(rest, draws, i), babies);
      }
    } else {
      assert Survivors(rest, draws, i) == [];
      assert done + [] == done;
    }
  }

  /** `Bot.execute` of the prototype always raises: ValueError without a tree, and TypeError with
      one, because it calls the tree's `execute` without the bot. */
  function BotExecute(b: PBot): (r: Error)
    ensures r == MissingBehavior <==> b.tree.None?
    ensures r == MissingBehavior || r == MissingArgument
  {
    if b.tree.None? then MissingBehavior else MissingArgument
  }

  /** `World.execute`: every plant of the snapshot is executed and removed at once if dead;
      accepted babies join the end of the list and wait for the next pass. Then the first bot
      raises, so any world with a bot ends the call with that bot's error, after the plant pass
      has already taken effect. */
  function WorldExecute(w: PWorld, draws: nat -> Draw): (r: (PWorld, Option<Error>))
    ensures r.0.bots == w.bots && r.0.botLimit == w.botLimit && r.0.plantLimit == w.plantLimit
    ensures r.1.None? <==> |w.bots| == 0
    ensures |w.bots| > 0 ==> r.1 == Some(BotExecute(w.bots[0]))
    ensures forall q | q in r.0.plants :: !q.dead
    ensures WorldModel.Truthy(w.plantLimit) && |w.plants| <= w.plantLimit.value + 1 ==>
              |r.0.plants| <= w.plantLimit.value + 1
    ensures |r.0.plants| <= 2 * |w.plants|
  {
    var (kept, babies) := SweepPlants([], w.plants, [], w.plantLimit, draws, 0);
    SweepKeepsOnlyLive([], w.plants, [], w.plantLimit, draws, 0);
    var w' := w.(plants := kept + babies);
    if |w.bots| == 0 then (w', None) else (w', Some(BotExecute(w.bots[0])))
  }
}

=== FILE: prototype_entities.dfy ===
/** The second prototype of the entities (entities.py): bots driven by the behaviour graph of
    intelligence.py with a flat upkeep of one unit per step, the reproduction test, plants that
    grow, reproduce and age, and the default names drawn from per-class construction counters.

    A behaviour function acts on the bot alone here: the oracle `call(bot, function)` returns the
    bot after the function and the function's answer. The world a plant offers its baby to is not
    part of this file, so a plant's step returns the baby it offers. */
module PrototypeEntities {
  import opened Basics
  import Intelligence

  /** Default naming at construction: the class counter goes up on every construction, named or
      not; an unnamed object is called the prefix followed by the new count in decimal. */
  function Name(prefix: string, counter: nat, name: Option<string>): (r: (string, nat))
    ensures r.1 == counter + 1
    ensures name.Some? ==> r.0 == name.value
    ensures name.None? ==> prefix <= r.0 && |r.0| > |prefix| && AllDigits(r.0[|prefix|..])
  {
    match name
    case Some(n) => (n, counter + 1)
    case None =>
      var digits := NatToString(counter + 1);
      assert (prefix + digits)[|prefix|..] == digits;
      (prefix + digits, counter + 1)
  }

  /** The count can be read back from a default name, so two constructions with different counts
      never share a default name. */
  lemma DefaultNamesCarryTheirCount(prefix: string, a: nat, b: nat)
    ensures var name := Name(prefix, a, None).0;
      AllDigits(name[|prefix|..]) && ParseNat(name[|prefix|..]) == a + 1
    ensures a != b ==> Name(prefix, a, None).0 != Name(prefix, b, None).0
  {
    var na, nb := Name(prefix, a, None).0, Name(prefix, b, None).0;
    assert na[|prefix|..] == NatToString(a + 1);
    assert nb[|prefix|..] == NatToString(b + 1);
    ParseNatToString(a + 1);
    if na == nb {
      NatToStringInjective(a + 1, b + 1);
    }
  }

  /** The bot's fixed settings. */
  const BotChildInvestment: real := 200.0
  const BotMaxEnergy: real := 300.0

  /** A prototype bot without its graph: position, energy, death flag, name and the point it
      heads for. */
  datatype EBot = EBot(x: real, y: real, energy: real, dead: bool, name: string, target: Option<(real, real)>)

  /** `Bot(x, y, energy)`: at the given position, alive, without a target, named from the bot counter. */
  function NewEBot(x: real, y: real, energy: real, counter: nat, name: Option<string>): (r: (EBot, nat))
    ensures r.1 == counter + 1 && r.0.name == Name("Bot_", counter, name).0
    ensures r.0.x == x && r.0.y == y && r.0.energy == energy && !r.0.dead && r.0.target.None?
  {
    var (n, c) := Name("Bot_", counter, name);
    (EBot(x, y, energy, false, n, None), c)
  }

  /** `Bot.step`: raises ValueError without a graph; otherwise the graph steps against the bot, the
      bot then pays one unit, and it is marked dead once below one unit (a dead bot stays dead). */
  function BotStep(b: EBot, graph: Option<Intelligence.Graph>, call: (EBot, Intelligence.Callable) -> (EBot, Option<bool>)): (r: Result<(EBot, Intelligence.Graph)>)
    ensures graph.None? ==> r == Err(MissingBehavior)
    ensures graph.Some? ==> (r.Err? <==> Intelligence.Step(graph.value, b, call).Err?)
    ensures r.Ok? ==> var (g, acted) := Intelligence.Step(graph.value, b, call).value;
      && r.value.1 == g && r.value.1.nodes == graph.value.nodes
      && r.value.0 == acted.(energy := r.value.0.energy, dead := r.value.0.dead)
      && r.value.0.energy == acted.energy - 1.0
      && (r.value.0.dead <==> acted.dead || r.value.0.energy < 1.0)
  {
    if graph.None? then Err(MissingBehavior)
    else
      var (g, acted) :- Intelligence.Step(graph.value, b, call);
      var e := acted.energy - 1.0;
      Ok((acted.(energy := e, dead := acted.dead || e < 1.0), g))
  }

  /** `can_i_reproduce`: the bot holds more than a child costs. */
  predicate CanIReproduce(b: EBot) {
    b.energy > BotChildInvestment
  }

  /** A live bot whose behaviour leaves its energy alone dies in its step exactly when it held less
      than two units, so a bot able to reproduce always survives such a step. */
  lemma UpkeepDeathThreshold(b: EBot, g: Intelligence.Graph, call: (EBot, Intelligence.Callable) -> (EBot, Option<bool>))
    requires Intelligence.Step(g, b, call).Ok?
    requires var acted := Intelligence.Step(g, b, call).value.1; !acted.dead && acted.energy == b.energy
    ensures BotStep(b, Some(g), call).Ok?
    ensures BotStep(b, Some(g), call).value.0.dead <==> b.energy < 2.0
    ensures CanIReproduce(b) ==> !BotStep(b, Some(g), call).value.0.dead
  {
  }

  /** The plant's fixed settings. */
  const PlantMaxAge: int := 1000
  const PlantMaxEnergy: real := 50.0
  const PlantGrowthRate: real := 1.0
  const PlantChildInvestment: real := 20.0
  const PlantReproductionChance: int := 2

  /** A prototype plant: position, energy, death flag, age and name. */
  datatype EPlant = EPlant(x: real, y: real, energy: real, dead: bool, age: int, name: string)

  /** `Plant(x, y, energy)`: alive, of age 0, named from the plant counter. */
  function NewEPlant(x: real, y: real, energy: real, counter: nat, name: Option<string>): (r: (EPlant, nat))
    ensures r.1 == counter + 1 && r.0.name == Name("Plant_", counter, name).0
    ensures r.0.x == x && r.0.y == y && r.0.energy == energy && !r.0.dead && r.0.age == 0
  {
    var (n, c) := Name("Plant_", counter, name);
    (EPlant(x, y, energy, false, 0, n), c)
  }

  /** The random draws of one reproduction check: `randint(0, 100)` and the spore's displacement
      from the parent (distance times the sine and cosine of the angle). */
  datatype Spore = Spore(roll: int, dx: real, dy: real)

  /** `Plant.check_reproduction`: with energy at least 30 and a roll below 2, the parent pays 20
      and a new, unnamed plant holding those 20 is created at the spore's displacement from the
      parent and offered to the world. Creating it advances the plant counter. */
  function CheckReproduction(p: EPlant, s: Spore, counter: nat): (r: (EPlant, Option<EPlant>, nat))
    ensures r.1.Some? <==> p.energy >= PlantMaxEnergy - PlantChildInvestment && s.roll < PlantReproductionChance
    ensures r.1.None? ==> r.0 == p && r.2 == counter
    ensures r.1.Some? ==> var baby := r.1.value;
      && r.0 == p.(energy := r.0.energy) && r.2 == counter + 1
      && r.0.energy + baby.energy == p.energy && baby.energy == PlantChildInvestment
      && baby.x == p.x + s.dx && baby.y == p.y + s.dy
      && baby.age == 0 && !baby.dead && baby.name == Name("Plant_", counter, None).0
  {
    if p.energy >= PlantMaxEnergy - PlantChildInvestment && s.roll < PlantReproductionChance then
      var (baby, c) := NewEPlant(p.x + s.dx, p.y + s.dy, PlantChildInvestment, counter, None);
      (p.(energy := p.energy - PlantChildInvestment), Some(baby), c)
    else
      (p, None, counter)
  }

  /** `Plant.step`: grow by 1 below the cap of 50, check reproduction, die once older than 1000,
      age by one. A plant below 51 units stays below 51. */
  function PlantStep(p: EPlant, s: Spore, counter: nat): (r: (EPlant, Option<EPlant>, nat))
    ensures r.0.age == p.age + 1 && r.0.x == p.x && r.0.y == p.y && r.0.name == p.name
    ensures r.0.dead <==> p.dead || p.age > PlantMaxAge
    ensures var grown := if p.energy < PlantMaxEnergy then p.energy + PlantGrowthRate else p.energy;
      && (r.1.None? ==> r.0.energy == grown && r.2 == counter)
      && (r.1.Some? ==> r.0.energy + r.1.value.energy == grown && r.1.value.energy == PlantChildInvestment && r.2 == counter + 1)
    ensures r.1.Some? ==> r.1.value.age == 0 && !r.1.value.dead && s.roll < PlantReproductionChance
    ensures p.energy < PlantMaxEnergy + PlantGrowthRate ==> r.0.energy < PlantMaxEnergy + PlantGrowthRate
  {
    var grown := if p.energy < PlantMaxEnergy then p.(energy := p.energy + PlantGrowthRate) else p;
    var (p', baby, c) := CheckReproduction(grown, s, counter);
    (p'.(dead := p'.dead || p'.age > PlantMaxAge, age := p'.age + 1), baby, c)
  }

  /** Total energy of a list of plants. */
  function Energy(ps: seq<EPlant>): real
    decreases |ps|
  {
    if |ps| == 0 then 0.0 else ps[0].energy + Energy(ps[1..])
  }

  /** Stepping each plant of a list once: the stepped plants in order, the babies they offer in
      order, and the advanced counter. */
  function StepAll(ps: seq<EPlant>, spores: nat -> Spore, i: nat, counter: nat): (r: (seq<EPlant>, seq<EPlant>, nat))
    ensures |r.0| == |ps| && |r.1| <= |ps| && r.2 == counter + |r.1|
    decreases |ps|
  {
    if |ps| == 0 then ([], [], counter)
    else
      var (p, baby, c) := PlantStep(ps[0], spores(i), counter);
      var (rest, babies, c') := StepAll(ps[1..], spores, i + 1, c);
      ([p] + rest, (if baby.Some? then [baby.value] else []) + babies, c')
  }

  /** Reproduction moves energy and never creates it: after one step of every plant, the stepped
      plants and their babies together hold what the plants held plus what they grew, and growth
      gives each plant at most one unit. */
  lemma {:induction false} StepAllConserves(ps: seq<EPlant>, spores: nat -> Spore, i: nat, counter: nat)
    ensures var r := StepAll(ps, spores, i, counter);
      Energy(ps) <= Energy(r.0) + Energy(r.1) <= Energy(ps) + |ps| as real * PlantGrowthRate
    decreases |ps|
  {
    if |ps| > 0 {
      var (p, baby, c) := PlantStep(ps[0], spores(i), counter);
      var (rest, babies, c') := StepAll(ps[1..], spores, i + 1, c);
      StepAllConserves(ps[1..], spores, i + 1, c);
      var head := if baby.Some? then [baby.value] else [];
      assert Energy(head + babies) == Energy(head) + Energy(babies) by {
        if baby.Some? {
          assert (head + babies)[1..] == babies;
          assert Energy(head) == baby.value.energy + Energy(head[1..]);
          assert head[1..] == [];
        } else {
          assert head + babies == babies;
        }
      }
    }
  }
}

=== FILE: strategies.dfy ===
/** The deterministic helpers among the behaviour functions of behavior_functions.py: looking up
    what a bot's signal detected, the energy tests, the message-type counter, and the energy
    accounting of cloning. The random draws of `create_clone` are parameters. */
module Strategies {
  import opened Basics
  import opened Entities
  import opened WorldModel
  import Intelligence

  /** A detected entity `_check_detected_entity_type` is looking for: of the wanted class and not
      the excluded object. */
  predicate Wanted(store: map<nat, Entity>, id: nat, kind: Kind, exclude: Option<nat>)
    requires id in store
  {
    KindOf(store[id]) == kind && Some(id) != exclude
  }

  /** Position `i` of the detection list holds a wanted entity and no earlier position does. */
  predicate FirstMatchAt(store: map<nat, Entity>, detected: seq<nat>, kind: Kind, exclude: Option<nat>, i: int)
    requires IdsIn(detected, store.Keys)
  {
    && 0 <= i < |detected| && Wanted(store, detected[i], kind, exclude)
    && forall j | 0 <= j < i :: !Wanted(store, detected[j], kind, exclude)
  }

  /** The first detected entity of the wanted class other than `exclude`, scanning in detection
      order. */
  function FirstOfKind(store: map<nat, Entity>, detected: seq<nat>, kind: Kind, exclude: Option<nat>): (r: Option<nat>)
    requires IdsIn(detected, store.Keys)
    ensures r.Some? ==> exists i :: FirstMatchAt(store, detected, kind, exclude, i) && detected[i] == r.value
    ensures r.None? ==> forall id | id in detected :: !Wanted(store, id, kind, exclude)
    decreases |detected|
  {
    if |detected| == 0 then None
    else if Wanted(store, detected[0], kind, exclude) then
      assert FirstMatchAt(store, detected, kind, exclude, 0);
      Some(detected[0])
    else
      assert forall id | id in detected[1..] :: id in detected;
      var r := FirstOfKind(store, detected[1..], kind, exclude);
      if r.Some? then
        var i :| FirstMatchAt(store, detected[1..], kind, exclude, i) && detected[1..][i] == r.value;
        assert FirstMatchAt(store, detected, kind, exclude, i + 1);
        r
      else
        assert detected == [detected[0]] + detected[1..];
        r
  }

  /** Whichever position holds the first wanted entity, `FirstOfKind` returns the entity there. */
  lemma {:induction false} FirstOfKindIsFirst(store: map<nat, Entity>, detected: seq<nat>, kind: Kind, exclude: Option<nat>, i: int)
    requires IdsIn(detected, store.Keys) && FirstMatchAt(store, detected, kind, exclude, i)
    ensures FirstOfKind(store, detected, kind, exclude) == Some(detected[i])
    decreases |detected|
  {
    if i > 0 {
      assert !Wanted(store, detected[0], kind, exclude);
      assert forall id | id in detected[1..] :: id in detected;
      assert FirstMatchAt(store, detected[1..], kind, exclude, i - 1) by {
        forall j | 0 <= j < i - 1
          ensures !Wanted(store, detected[1..][j], kind, exclude)
        {
          assert detected[1..][j] == detected[j + 1];
        }
      }
      FirstOfKindIsFirst(store, detected[1..], kind, exclude, i - 1);
    }
  }

  /** `_check_detected_entity_type`: nothing (Python's `False`) without a signal, with an empty
      detection list or with a signal out of energy; otherwise the first detected entity of the
      wanted class other than `exclude`, if any. */
  function CheckDetectedEntityType(w: World, signal: Option<nat>, kind: Kind, exclude: Option<nat>): (r: Option<nat>)
    requires signal.Some? ==> signal.value in w.store && w.store[signal.value].role.Signal?
    ensures signal.None? ==> r.None?
    ensures signal.Some? && w.store[signal.value].body.energy <= 0.0 ==> r.None?
    ensures signal.Some? && w.store[signal.value].body.energy > 0.0 ==>
              var detected := w.store[signal.value].role.detected;
              && IdsIn(detected, w.store.Keys)
              && (r.Some? <==> exists i :: FirstMatchAt(w.store, detected, kind, exclude, i))
              && (forall i | FirstMatchAt(w.store, detected, kind, exclude, i) :: r == Some(detected[i]))
  {
    if signal.None? then None
    else
      var s := w.store[signal.value];
      assert RefsIn(s, w.store.Keys);
      if s.role.detected == [] || s.body.energy <= 0.0 then None
      else
        var r := FirstOfKind(w.store, s.role.detected, kind, exclude);
        assert forall i | FirstMatchAt(w.store, s.role.detected, kind, exclude, i) :: r == Some(s.role.detected[i]) by {
          forall i | FirstMatchAt(w.store, s.role.detected, kind, exclude, i)
            ensures r == Some(s.role.detected[i])
          {
            FirstOfKindIsFirst(w.store, s.role.detected, kind, exclude, i);
          }
        }
        r
  }

  /** `reproduce_possible`: the bot holds strictly more than the investment a child costs. */
  predicate ReproducePossible(bot: Entity)
    requires bot.role.Bot?
  {
    bot.body.energy > bot.role.childInvestment
  }

  /** `signal_exists`: the bot holds a signal. */
  predicate SignalExists(bot: Entity)
    requires bot.role.Bot?
  {
    bot.role.signal.Some?
  }

  /** `very_low_energy`: fewer than 100 units. */
  predicate VeryLowEnergy(bot: Entity) {
    bot.body.energy < 100.0
  }

  /** `increment_message_type`: counts up and falls back to 0 past 2. */
  function IncrementMessageType(m: int): (r: int)
    ensures m < 2 ==> r == m + 1
    ensures m >= 2 ==> r == 0
  {
    if m + 1 > 2 then 0 else m + 1
  }

  /** The message types 0, 1 and 2 form a cycle of length three under the counter, and the counter
      never leaves them. */
  lemma MessageTypeCycles(m: int)
    requires 0 <= m <= 2
    ensures 0 <= IncrementMessageType(m) <= 2
    ensures IncrementMessageType(m) != m
    ensures IncrementMessageType(IncrementMessageType(IncrementMessageType(m))) == m
  {
  }

  /** `_check_message_type`: true exactly when the bot's signal still has energy and, among the
      entities it detected, the first signal other than the bot's own carries the wanted message
      type. `messageOf` gives each entity's `message_signal_type`, an attribute no class of the
      source defines, so the source itself raises `AttributeError` once a foreign signal is found. */
  function CheckMessageType(w: World, bot: nat, messageType: int, messageOf: nat -> int): (r: bool)
    requires bot in w.store && w.store[bot].role.Bot?
    requires w.store[bot].role.signal.Some? ==> w.store[w.store[bot].role.signal.value].role.Signal?
    ensures var own := w.store[bot].role.signal;
      r <==> && own.Some? && w.store[own.value].body.energy > 0.0
             && var detected := w.store[own.value].role.detected;
                exists i :: FirstMatchAt(w.store, detected, SignalKind, own, i) && messageOf(detected[i]) == messageType
  {
    var signal := w.store[bot].role.signal;
    assert RefsIn(w.store[bot], w.store.Keys);
    var item := CheckDetectedEntityType(w, signal, SignalKind, signal);
    item.Some? && messageOf(item.value) == messageType
  }

  /** `create_clone`: nothing happens to a bot without energy. Otherwise the bot pays a tax of 10
      into the ledger, a new bot of the next generation is created at the drawn offset with a copy
      of the parent's behaviour graph, the parent funds it with its child investment (refused if
      the tax killed the parent), the parent's child count goes up by one, and the child is offered
      to the world, which lists it iff the bot cap allows one more. This is the accounting the
      code evidently intends: as written, after the tax the source raises `AttributeError` at
      behavior_functions.py:40 (and already at :36 when the mutation draw is below 40), because
      the behaviour graph has no `set_entry_node` or `mutate_behavior`, so the transfer, the child
      count and `add_entity` never run there. */
  function CreateClone(w: World, id: nat, dx: int, dy: int): (r: (World, Option<nat>))
    requires id in w.store && w.store[id].role.Bot?
    ensures w.store[id].body.energy <= 0.0 ==> r == (w, None)
    ensures w.store[id].body.energy > 0.0 ==>
              && r.1 == Some(w.nextId) && w.nextId !in w.store
              && r.0.store.Keys == w.store.Keys + {w.nextId}
  {
    var p := w.store[id];
    if p.body.energy <= 0.0 then (w, None)
    else
      var (taxed, _) := DrainFrom(w, 10.0, id);
      var (funded, child) := Fund(taxed, id, dx, dy);
      (AddEntity(funded, child).0, Some(child))
  }

  /** The clone is a bot of the next generation carrying the parent's behaviour, the parent counts
      one more child, and the plant and signal lists are untouched. */
  lemma CloneInheritsBehavior(w: World, id: nat, dx: int, dy: int)
    requires id in w.store && w.store[id].role.Bot? && w.store[id].body.energy > 0.0
    ensures var (r, child) := CreateClone(w, id, dx, dy);
      var p, c := w.store[id], r.store[child.value];
      && c.role.Bot? && c.role.generation == p.role.generation + 1
      && c.role.behavior == p.role.behavior
      && r.store[id].body.children == p.body.children + 1
      && r.plants == w.plants && r.signals == w.signals
  {
    var (taxed, _) := DrainFrom(w, 10.0, id);
    var (funded, child) := Fund(taxed, id, dx, dy);
    assert CreateClone(w, id, dx, dy) == (AddEntity(funded, child).0, Some(child));
  }

  /** The clone joins the bot list, at its end, exactly when it was funded with a non-negative
      amount and the bot cap allows one more; otherwise the list is unchanged. */
  lemma CloneIsListedIfAdmitted(w: World, id: nat, dx: int, dy: int)
    requires id in w.store && w.store[id].role.Bot? && w.store[id].body.energy > 0.0
    ensures var (r, child) := CreateClone(w, id, dx, dy);
      && (r.bots == w.bots + [child.value] || r.bots == w.bots)
      && (r.bots == w.bots + [child.value] <==> r.store[child.value].body.energy >= 0.0 && Admits(w.botLimit, |w.bots|))
  {
    var (taxed, _) := DrainFrom(w, 10.0, id);
    var (funded, child) := Fund(taxed, id, dx, dy);
    assert CreateClone(w, id, dx, dy) == (AddEntity(funded, child).0, Some(child));
  }

  /** The ledger side of `create_clone`: the tax goes to a finite pool and the investment moves
      from parent to child, so pool, parent and child together hold what pool and parent held. A
      parent with at most 10 units dies of the tax and its child gets nothing; otherwise the child
      gets the investment, capped at what the parent has left. */
  lemma CloneLedger(w: World, id: nat, dx: int, dy: int)
    requires id in w.store && w.store[id].role.Bot? && w.store[id].body.energy > 0.0
    ensures var (r, child) := CreateClone(w, id, dx, dy);
      var p, p', c := w.store[id].body, r.store[id].body, r.store[child.value].body;
      && (w.pool.Some? ==> r.pool.Some? && r.pool.value + p'.energy + c.energy == w.pool.value + p.energy)
      && (p.energy <= 10.0 ==> p'.dead && c.energy == 0.0)
      && (p.energy > 10.0 && !p.dead ==> c.energy == Min(w.store[id].role.childInvestment, p.energy - 10.0))
  {
    var (taxed, _) := DrainFrom(w, 10.0, id);
    var (funded, child) := Fund(taxed, id, dx, dy);
    assert CreateClone(w, id, dx, dy) == (AddEntity(funded, child).0, Some(child));
  }

  /** The middle of `create_clone`: the child is created and funded, and the parent's child count
      goes up; the child is stored but not listed. */
  function Fund(w: World, id: nat, dx: int, dy: int): (r: (World, nat))
    requires id in w.store && w.store[id].role.Bot?
    ensures var p, child := w.store[id], r.1;
      && child == w.nextId && child !in w.store
      && r.0.store.Keys == w.store.Keys + {child}
      && r.0.store[child].role.Bot? && r.0.store[child].role.generation == p.role.generation + 1
      && r.0.store[child].role.behavior == p.role.behavior
      && r.0.store[id].role == p.role
      && r.0.store[id].body.children == p.body.children + 1
      && r.0.store[id].body.energy + r.0.store[child].body.energy == p.body.energy
      && (p.body.dead ==> r.0.store[child].body.energy == 0.0 && r.0.store[id].body.dead)
      && (!p.body.dead ==> r.0.store[child].body.energy == Min(p.role.childInvestment, p.body.energy))
    ensures r.0 == w.(store := r.0.store, nextId := w.nextId + 1)
  {
    var p := w.store[id];
    var behavior := if p.role.behavior.Some? then Some(Intelligence.ReturnTreeCopy(p.role.behavior.value)) else None;
    var (w1, child) := Allocate(w, NewBot(p.body.x + dx as real, p.body.y + dy as real, p.role.generation + 1, behavior));
    var (w2, _) := TransferBetween(w1, p.role.childInvestment, id, child);
    var parent := w2.store[id].body;
    (SetBody(w2, id, parent.(children := parent.children + 1)), child)
  }

  /** `reproduce_possible` does not protect the parent: a bot holding 5 units more than its
      investment may clone, but after the tax of 10 it can no longer cover the investment and the
      transfer kills it. */
  lemma ReproducePossibleCanStillKill()
    ensures var bot := Entity(Body(0.0, 0.0, 205.0, false, Some(0), 0, 0),
                              Bot(None, 1.0, 200.0, 2000, 0.0, 1, None, None));
      var w: World := WorldState(0, map[0 := bot], 1, [], [0], [], None, None, None, None, None, None, [], None, []);
      && ReproducePossible(bot)
      && CreateClone(w, 0, 0, 0).0.store[0].body.dead
  {
    var bot := Entity(Body(0.0, 0.0, 205.0, false, Some(0), 0, 0), Bot(None, 1.0, 200.0, 2000, 0.0, 1, None, None));
    var w: World := WorldState(0, map[0 := bot], 1, [], [0], [], None, None, None, None, None, None, [], None, []);
    var (taxed, _) := DrainFrom(w, 10.0, 0);
    assert taxed.store[0].body.energy == 195.0;
  }
}

=== FILE: tick.dfy ===
/** One tick of the world (`World.step` in world.py): the clock advances, the death record is
    cleared, the aggregate and the index are rebuilt, and then the plants, the bots and the signals
    are swept in that order. Each sweep walks a snapshot of its list taken when the sweep starts:
    a dead entity is removed, its remaining energy returned to a finite pool and, for a bot,
    recorded as recently dead and deselected; a live entity is wrapped into the boundaries and
    stepped by its class's rule. An exception raised by a bot ends the tick. */
module Tick {
  import opened Basics
  import opened Entities
  import opened WorldModel
  import opened EntityRules

  /** The random draws of every plant on every tick, by tick number and plant identity. */
  type Spores = (int, nat) -> Spore

  datatype ListKind = PlantList | BotList | SignalList

  function Listed(w: WorldState, k: ListKind): seq<nat> {
    match k
    case PlantList => w.plants
    case BotList => w.bots
    case SignalList => w.signals
  }

  /** The world with one of its lists replaced. */
  function WithListed(w: World, k: ListKind, s: seq<nat>): (r: World)
    requires IdsIn(s, w.store.Keys)
    ensures Listed(r, k) == s
    ensures forall j: ListKind | j != k :: Listed(r, j) == Listed(w, j)
    ensures r == w.(plants := r.plants, bots := r.bots, signals := r.signals)
  {
    match k
    case PlantList => w.(plants := s)
    case BotList => w.(bots := s)
    case SignalList => w.(signals := s)
  }

  /** A dead bot entered in the death record, and deselected if it was the selected one. */
  function RecordDeath(w: World, id: nat): (r: World)
    requires id in w.store
    ensures r.recentlyDead == w.recentlyDead + [id]
    ensures r.selected == (if w.selected == Some(id) then None else w.selected)
    ensures r == w.(recentlyDead := r.recentlyDead, selected := r.selected)
  {
    w.(recentlyDead := w.recentlyDead + [id], selected := if w.selected == Some(id) then None else w.selected)
  }

  /** A finite pool takes back a positive remainder of energy; an infinite pool stays infinite. */
  function Refund(pool: Option<real>, e: real): Option<real> {
    if pool.Some? && e > 0.0 then Some(pool.value + e) else pool
  }

  /** Removing a dead entity: `array.remove(entity)` on the list being swept, the remaining positive
      energy back into a finite pool, and a bot recorded as recently dead and deselected if it was
      the selected one. */
  function Bury(w: World, k: ListKind, id: nat): (r: World)
    requires id in w.store
    ensures Listed(r, k) == RemoveFirst(Listed(w, k), id)
    ensures forall j: ListKind | j != k :: Listed(r, j) == Listed(w, j)
    ensures var e := w.store[id].body.energy;
      r.pool == (if w.pool.Some? && e > 0.0 then Some(w.pool.value + e) else w.pool)
    ensures r.pool == Refund(w.pool, w.store[id].body.energy)
    ensures KindOf(w.store[id]) == BotKind ==>
              r.recentlyDead == w.recentlyDead + [id] && r.selected == (if w.selected == Some(id) then None else w.selected)
    ensures KindOf(w.store[id]) != BotKind ==> r.recentlyDead == w.recentlyDead && r.selected == w.selected
    ensures r.store == w.store && Settled(w, r)
  {
    var e := w.store[id];
    var pool := Refund(w.pool, e.body.energy);
    var w1 := WithListed(w, k, RemoveFirst(Listed(w, k), id)).(pool := pool);
    if KindOf(e) == BotKind then RecordDeath(w1, id) else w1
  }

  /** Stepping a live entity by its class. */
  function StepEntity(w: World, id: nat, behave: Behave, spores: Spores): (r: Result<World>)
    requires id in w.store
    ensures r.Ok? ==> Settled(w, r.value) && r.value.recentlyDead == w.recentlyDead && r.value.selected == w.selected
    ensures KindOf(w.store[id]) != BotKind ==> r.Ok?
  {
    match w.store[id].role
    case Plant(_, _, _, _, _, _, _) => Ok(PlantStep(w, id, spores(w.tick, id)))
    case Bot(_, _, _, _, _, _, _, _) => BotStep(w, id, behave)
    case Signal(_, _, _, _, _, _) => Ok(SignalStep(w, id))
  }

  /** The body of the sweep loop for one entity. */
  function ProcessOne(w: World, k: ListKind, id: nat, behave: Behave, spores: Spores): (r: Result<World>)
    requires id in w.store
    ensures w.store[id].body.dead ==> r == Ok(Bury(w, k, id))
    ensures !w.store[id].body.dead ==> r == StepEntity(SetBody(w, id, Wrap(w.store[id].body, w.bounds)), id, behave, spores)
    ensures r.Ok? ==> Settled(w, r.value)
    ensures r.Ok? ==> r.value.recentlyDead == w.recentlyDead || r.value.recentlyDead == w.recentlyDead + [id]
    ensures r.Ok? && r.value.recentlyDead != w.recentlyDead ==> w.store[id].body.dead && KindOf(w.store[id]) == BotKind
    ensures r.Ok? && SelectionAlive(w) ==> SelectionAlive(r.value)
  {
    var e := w.store[id];
    if e.body.dead then Ok(Bury(w, k, id))
    else StepEntity(SetBody(w, id, Wrap(e.body, w.bounds)), id, behave, spores)
  }

  /** The selected bot is never one recorded as recently dead. */
  predicate SelectionAlive(w: WorldState) {
    w.selected.Some? ==> w.selected.value !in w.recentlyDead
  }

  /** `for entity in list(array)`: the entities of the snapshot in order, stopping at the first
      exception. */
  function Sweep(w: World, k: ListKind, snapshot: seq<nat>, behave: Behave, spores: Spores): (r: Result<World>)
    requires IdsIn(snapshot, w.store.Keys)
    ensures r.Ok? ==> Settled(w, r.value)
    decreases |snapshot|
  {
    if |snapshot| == 0 then Ok(w)
    else
      var w1 :- ProcessOne(w, k, snapshot[0], behave, spores);
      Sweep(w1, k, snapshot[1..], behave, spores)
  }

  /** A sweep only appends to the death record, only bots of its snapshot, and never leaves the
      selection on a recently dead bot. */
  lemma {:induction false} SweepRecord(w: World, k: ListKind, snapshot: seq<nat>, behave: Behave, spores: Spores)
    requires IdsIn(snapshot, w.store.Keys)
    requires Sweep(w, k, snapshot, behave, spores).Ok?
    ensures var r := Sweep(w, k, snapshot, behave, spores).value;
      && w.recentlyDead <= r.recentlyDead
      && (forall id | id in r.recentlyDead :: id in w.recentlyDead || (id in snapshot && KindOf(w.store[id]) == BotKind))
      && (SelectionAlive(w) ==> SelectionAlive(r))
    decreases |snapshot|
  {
    if |snapshot| > 0 {
      var w1 := ProcessOne(w, k, snapshot[0], behave, spores).value;
      assert forall id | id in snapshot[1..] :: id in snapshot;
      SweepRecord(w1, k, snapshot[1..], behave, spores);
    }
  }

  /** `World.step`: the clock advances by one, the aggregate is the plants, bots and signals as they
      stood when the tick began, the settings of the world are unchanged, and the death record,
      emptied when the tick began, holds only bots. */
  function Step(w: World, behave: Behave, spores: Spores): (r: Result<World>)
    ensures r.Ok? ==> r.value.tick == w.tick + 1
    ensures r.Ok? ==> r.value.allEntities == w.plants + w.bots + w.signals
    ensures r.Ok? ==> r.value.botLimit == w.botLimit && r.value.plantLimit == w.plantLimit && r.value.bounds == w.bounds
    ensures r.Ok? ==> w.store.Keys <= r.value.store.Keys
    ensures r.Ok? ==> forall id | id in r.value.recentlyDead :: id in r.value.store && KindOf(r.value.store[id]) == BotKind
  {
    var w0 := Begin(w);
    var w1 :- Sweep(w0, PlantList, w0.plants, behave, spores);
    var w2 :- Sweep(w1, BotList, w1.bots, behave, spores);
    var r := Sweep(w2, SignalList, w2.signals, behave, spores);
    if r.Ok? then
      SweepRecord(w0, PlantList, w0.plants, behave, spores);
      SweepRecord(w1, BotList, w1.bots, behave, spores);
      SweepRecord(w2, SignalList, w2.signals, behave, spores);
      r
    else
      r
  }

  /** The bookkeeping before the sweeps: clock, death record, aggregate and index. */
  function Begin(w: World): (r: World)
    ensures r.tick == w.tick + 1 && r.recentlyDead == []
    ensures r.allEntities == w.plants + w.bots + w.signals
    ensures |r.allEntities| > 0 ==> r.index.Some? && |r.index.value| == |r.allEntities|
    ensures |r.allEntities| == 0 ==> r.index == w.index
    ensures r == w.(tick := r.tick, recentlyDead := [], allEntities := r.allEntities, index := r.index)
  {
    BuildIndex(Aggregate(w.(tick := w.tick + 1, recentlyDead := [])))
  }

  /** After a tick the selected bot, if any, is not among those that died during it, and every
      bot recorded as dead was in the list being swept when it was removed. */
  lemma StepSelectionAlive(w: World, behave: Behave, spores: Spores)
    requires Step(w, behave, spores).Ok?
    ensures SelectionAlive(Step(w, behave, spores).value)
  {
    var w0 := Begin(w);
    var w1 := Sweep(w0, PlantList, w0.plants, behave, spores).value;
    SweepRecord(w0, PlantList, w0.plants, behave, spores);
    var w2 := Sweep(w1, BotList, w1.bots, behave, spores).value;
    SweepRecord(w1, BotList, w1.bots, behave, spores);
    SweepRecord(w2, SignalList, w2.signals, behave, spores);
  }

  /** Removing one occurrence of a listed entity removes exactly its energy from the listed total. */
  lemma {:induction false} HeldRemoveFirst(store: map<nat, Entity>, ids: seq<nat>, id: nat)
    requires IdsIn(ids, store.Keys) && id in ids
    ensures IdsIn(RemoveFirst(ids, id), store.Keys)
    ensures Held(store, RemoveFirst(ids, id)) == Held(store, ids) - store[id].body.energy
    decreases |ids|
  {
    if ids[0] != id {
      var rest := RemoveFirst(ids[1..], id);
      assert RemoveFirst(ids, id) == [ids[0]] + rest;
      assert ([ids[0]] + rest)[1..] == rest;
      HeldRemoveFirst(store, ids[1..], id);
    }
  }

  /** The positive energy of the listed entities, which their burial returns to a finite pool
      (an identity with no stored entity counts for nothing). */
  function Returned(store: map<nat, Entity>, ids: seq<nat>): real
    decreases |ids|
  {
    if |ids| == 0 then 0.0 else Credit(store, ids[0]) + Returned(store, ids[1..])
  }

  /** The positive energy of one stored entity. */
  function Credit(store: map<nat, Entity>, id: nat): real {
    if id in store && store[id].body.energy > 0.0 then store[id].body.energy else 0.0
  }

  /** A pool after refunding the listed entities one by one. */
  function PoolAfter(pool: Option<real>, store: map<nat, Entity>, ids: seq<nat>): (r: Option<real>)
    ensures pool.None? ==> r.None?
    ensures pool.Some? ==> r == Some(pool.value + Returned(store, ids))
    decreases |ids|
  {
    if |ids| == 0 then pool
    else
      var e := if ids[0] in store then store[ids[0]].body.energy else 0.0;
      PoolAfter(Refund(pool, e), store, ids[1..])
  }

  /** Burying the head of a list removes exactly the head. */
  lemma BuryHead(w: World, k: ListKind)
    requires |Listed(w, k)| > 0
    ensures Listed(Bury(w, k, Listed(w, k)[0]), k) == Listed(w, k)[1..]
  {
    var list := Listed(w, k);
    assert FirstIndex(list, list[0]) == 0;
  }

  /** The first step of a sweep: a dead head is buried and the sweep goes on with the rest of the
      snapshot. */
  lemma SweepBuriesDeadHead(w: World, k: ListKind, snapshot: seq<nat>, behave: Behave, spores: Spores)
    requires IdsIn(snapshot, w.store.Keys) && |snapshot| > 0 && w.store[snapshot[0]].body.dead
    ensures IdsIn(snapshot[1..], w.store.Keys)
    ensures Sweep(w, k, snapshot, behave, spores)
            == Sweep(Bury(w, k, snapshot[0]), k, snapshot[1..], behave, spores)
  {
    assert forall j | j in snapshot[1..] :: j in snapshot;
  }

  /** Sweeping a list whose entities are all dead never raises and empties it: each entity is
      buried in turn, the store and the other lists are untouched, and only the list's bots are
      recorded as dead. */
  lemma {:induction false} DeadListIsEmptied(w: World, k: ListKind, behave: Behave, spores: Spores)
    requires forall id | id in Listed(w, k) :: w.store[id].body.dead
    ensures Sweep(w, k, Listed(w, k), behave, spores).Ok?
    ensures var r := Sweep(w, k, Listed(w, k), behave, spores).value;
      && Listed(r, k) == [] && r.store == w.store
      && (forall j: ListKind | j != k :: Listed(r, j) == Listed(w, j))
      && (forall id | id in r.recentlyDead :: id in w.recentlyDead || (id in Listed(w, k) && KindOf(w.store[id]) == BotKind))
    decreases |Listed(w, k)|
  {
    var list := Listed(w, k);
    if |list| > 0 {
      SweepBuriesDeadHead(w, k, list, behave, spores);
      BuryHead(w, k);
      var w1 := Bury(w, k, list[0]);
      DeadListIsEmptied(w1, k, behave, spores);
    }
  }

  /** Burying every entity of a snapshot in order: the store is kept, and the positive energy of
      the snapshot goes into a finite pool. */
  function BuryAll(w: World, k: ListKind, snapshot: seq<nat>): (r: World)
    requires IdsIn(snapshot, w.store.Keys)
    ensures r.store == w.store
    ensures r.pool == PoolAfter(w.pool, w.store, snapshot)
    decreases |snapshot|
  {
    if |snapshot| == 0 then w
    else
      assert forall id | id in snapshot[1..] :: id in snapshot;
      BuryAll(Bury(w, k, snapshot[0]), k, snapshot[1..])
  }

  /** A sweep over a snapshot of dead entities never raises and buries each of them in turn, so
      it returns their positive energy to a finite pool and creates none without one. */
  lemma {:induction false} DeadSweepBuriesAll(w: World, k: ListKind, snapshot: seq<nat>, behave: Behave, spores: Spores)
    requires IdsIn(snapshot, w.store.Keys)
    requires forall id | id in snapshot :: w.store[id].body.dead
    ensures Sweep(w, k, snapshot, behave, spores) == Ok(BuryAll(w, k, snapshot))
    decreases |snapshot|
  {
    if |snapshot| > 0 {
      SweepBuriesDeadHead(w, k, snapshot, behave, spores);
      var w1 := Bury(w, k, snapshot[0]);
      assert forall id | id in snapshot[1..] :: id in snapshot;
      DeadSweepBuriesAll(w1, k, snapshot[1..], behave, spores);
    }
  }

  /** Removing a dead entity with no debt of energy conserves the pool plus the energy of the list
      being swept: what leaves the list enters the pool. */
  lemma BuryConserves(w: World, k: ListKind, id: nat)
    requires id in w.store && id in Listed(w, k) && w.pool.Some? && w.store[id].body.energy >= 0.0
    ensures var r := Bury(w, k, id);
      r.pool.Some? && r.pool.value + Held(r.store, Listed(r, k)) == w.pool.value + Held(w.store, Listed(w, k))
  {
    HeldRemoveFirst(w.store, Listed(w, k), id);
  }

  /** A live plant is wrapped into the boundaries and does not move while it steps, so it ends the
      sweep step inside them. */
  lemma LivePlantStaysInside(w: World, k: ListKind, id: nat, behave: Behave, spores: Spores)
    requires id in w.store && w.store[id].role.Plant? && !w.store[id].body.dead
    ensures var r := ProcessOne(w, k, id, behave, spores);
      r.Ok? && InBounds(r.value.store[id].body, w.bounds)
  {
  }

  /** One plant's turn keeps every newborn a plant of age 0, makes every entity it creates one,
      and leaves every stored plant a plant. */
  lemma PlantTurnKeepsNewborns(w: World, id: nat, behave: Behave, spores: Spores, born: set<nat>)
    requires id in w.store && id !in born && w.store[id].role.Plant?
    requires forall k | k in born :: k in w.store && w.store[k].body.age == 0 && w.store[k].role.Plant?
    ensures ProcessOne(w, PlantList, id, behave, spores).Ok?
    ensures var w1 := ProcessOne(w, PlantList, id, behave, spores).value;
      && w.store.Keys <= w1.store.Keys
      && (forall k | k in born + (w1.store.Keys - w.store.Keys) :: w1.store[k].body.age == 0 && w1.store[k].role.Plant?)
      && (forall j | j in w.store && w.store[j].role.Plant? :: w1.store[j].role.Plant?)
  {
  }

  /** In a sweep of plants, an entity created during the sweep is not stepped by it: every entity
      that was not stored when the sweep began is a plant of age 0 when it ends. */
  lemma {:induction false} NewbornsAreNotStepped(w: World, snapshot: seq<nat>, behave: Behave, spores: Spores, born: set<nat>)
    requires IdsIn(snapshot, w.store.Keys - born)
    requires forall id | id in snapshot :: w.store[id].role.Plant?
    requires forall k | k in born :: k in w.store && w.store[k].body.age == 0 && w.store[k].role.Plant?
    ensures Sweep(w, PlantList, snapshot, behave, spores).Ok?
    ensures var r := Sweep(w, PlantList, snapshot, behave, spores).value;
      forall k | k in r.store && (k in born || k !in w.store) :: r.store[k].body.age == 0 && r.store[k].role.Plant?
    decreases |snapshot|
  {
    if |snapshot| > 0 {
      var id := snapshot[0];
      assert id in snapshot;
      PlantTurnKeepsNewborns(w, id, behave, spores, born);
      var w1 := ProcessOne(w, PlantList, id, behave, spores).value;
      var born1 := born + (w1.store.Keys - w.store.Keys);
      assert forall j | j in snapshot[1..] :: j in snapshot;
      assert IdsIn(snapshot[1..], w1.store.Keys - born1);
      NewbornsAreNotStepped(w1, snapshot[1..], behave, spores, born1);
      assert Sweep(w, PlantList, snapshot, behave, spores) == Sweep(w1, PlantList, snapshot[1..], behave, spores);
    }
  }
}

=== FILE: worldmodel.dfy ===
/** The world of world.py: the entity lists, population caps, boundaries and the energy pool, the
    ledger operations applied to entities by identity, admission of new entities, the aggregate
    entity list, the spatial index and the torus-wrapped displacement between two points.

    Python objects are modelled as a heap: `store` maps an identity to the entity's current record
    and the lists hold identities, so `list.remove`, `in` and `is` keep their meaning. An entity
    never leaves the store (a Python object stays reachable through other references), and
    `nextId` is the next fresh identity. */
module WorldModel {
  import opened Basics
  import opened Entities
  import Ledger

  /** A side of the world; every boundary the program is given is positive. */
  type Extent = r: real | r > 0.0 witness 1.0

  /** `boundary_sizes`: width and height of the torus. */
  datatype Bounds = Bounds(width: Extent, height: Extent)

  /** One point of the spatial index: an entity and where it stood when the index was built. */
  datatype Sighting = Sighting(id: nat, x: real, y: real)

  datatype WorldState = WorldState(
    tick: int,
    store: map<nat, Entity>,
    nextId: nat,
    plants: seq<nat>,
    bots: seq<nat>,
    signals: seq<nat>,
    botLimit: Option<int>,
    plantLimit: Option<int>,
    bounds: Option<Bounds>,
    pool: Option<real>,
    initialEnergy: Option<real>,
    selected: Option<nat>,
    allEntities: seq<nat>,
    index: Option<seq<Sighting>>,
    recentlyDead: seq<nat>)

  predicate IdsIn(s: seq<nat>, keys: set<nat>) {
    forall id | id in s :: id in keys
  }

  /** The references an entity holds: a bot's signal, a signal's owner and what it detected. */
  predicate RefsIn(e: Entity, keys: set<nat>) {
    match e.role
    case Plant(_, _, _, _, _, _, _) => true
    case Bot(_, _, _, _, _, _, _, signal) => signal.Some? ==> signal.value in keys
    case Signal(owner, _, detected, _, _, _) => owner in keys && IdsIn(detected, keys)
  }

  /** Every identity the world or one of its entities refers to names a stored entity, and every
      stored identity was handed out before `nextId`. */
  predicate Closed(w: WorldState) {
    var keys := w.store.Keys;
    && IdsIn(w.plants, keys) && IdsIn(w.bots, keys) && IdsIn(w.signals, keys)
    && IdsIn(w.allEntities, keys) && IdsIn(w.recentlyDead, keys)
    && (w.selected.Some? ==> w.selected.value in keys)
    && (w.index.Some? ==> forall s | s in w.index.value :: s.id in keys)
    && (forall k | k in keys :: k < w.nextId && RefsIn(w.store[k], keys))
  }

  type World = w: WorldState | Closed(w)
    witness WorldState(0, map[], 0, [], [], [], None, None, None, None, None, None, [], None, [])

  /** `World(bot_limit, plant_limit, boundary_sizes, energy_pool)`: tick 0, no entities, no index,
      and the initial pool remembered. */
  function NewWorld(botLimit: Option<int>, plantLimit: Option<int>, bounds: Option<Bounds>, pool: Option<real>): (w: World)
    ensures w.tick == 0 && w.plants == [] && w.bots == [] && w.signals == [] && w.allEntities == []
    ensures w.store == map[] && w.index.None? && w.selected.None? && w.recentlyDead == []
    ensures w.pool == pool && w.initialEnergy == pool
    ensures w.botLimit == botLimit && w.plantLimit == plantLimit && w.bounds == bounds
  {
    WorldState(0, map[], 0, [], [], [], botLimit, plantLimit, bounds, pool, pool, None, [], None, [])
  }

  /** What stepping an entity never changes: the clock, the caps, the bounds, the initial energy,
      the aggregate and the index; identities are only ever added to the store, and a stored
      entity never changes its class. */
  predicate Settled(a: WorldState, b: WorldState) {
    && a.tick == b.tick && a.botLimit == b.botLimit && a.plantLimit == b.plantLimit
    && a.bounds == b.bounds && a.initialEnergy == b.initialEnergy
    && a.allEntities == b.allEntities && a.index == b.index
    && a.store.Keys <= b.store.Keys
    && forall k | k in a.store :: KindOf(b.store[k]) == KindOf(a.store[k])
  }

  /** Settling twice is settling once. */
  lemma SettledTrans(a: WorldState, b: WorldState, c: WorldState)
    requires Settled(a, b) && Settled(b, c)
    ensures Settled(a, c)
  {
  }

  /** Replacing the body of a stored entity keeps its role and every other entity. */
  function SetBody(w: World, id: nat, b: Body): (r: World)
    requires id in w.store
    ensures r.store.Keys == w.store.Keys
    ensures r.store[id] == Entity(b, w.store[id].role)
    ensures forall k | k in w.store && k != id :: r.store[k] == w.store[k]
    ensures Settled(w, r)
    ensures r == w.(store := r.store)
  {
    w.(store := w.store[id := Entity(b, w.store[id].role)])
  }

  /** Replacing a stored entity by one whose references resolve. */
  function SetEntity(w: World, id: nat, e: Entity): (r: World)
    requires id in w.store && RefsIn(e, w.store.Keys)
    ensures r.store == w.store[id := e]
    ensures KindOf(e) == KindOf(w.store[id]) ==> Settled(w, r)
    ensures r == w.(store := r.store)
  {
    w.(store := w.store[id := e])
  }

  /** Creating a Python object: the entity gets the next fresh identity; no list refers to it. */
  function Allocate(w: World, e: Entity): (r: (World, nat))
    requires RefsIn(e, w.store.Keys)
    ensures r.1 == w.nextId && r.1 !in w.store
    ensures r.0.store == w.store[r.1 := e]
    ensures r.0 == w.(store := r.0.store, nextId := w.nextId + 1)
  {
    var id := w.nextId;
    var w': WorldState := w.(store := w.store[id := e], nextId := id + 1);
    RefsGrow(w.store.Keys, w'.store.Keys);
    (w', id)
  }

  /** Adding identities to the store keeps every reference resolvable. */
  lemma RefsGrow(small: set<nat>, big: set<nat>)
    requires small <= big
    ensures forall e: Entity | RefsIn(e, small) :: RefsIn(e, big)
  {
  }

  /** A position inside the torus. */
  predicate InBounds(b: Body, bounds: Option<Bounds>) {
    bounds.Some? ==> 0.0 <= b.x < bounds.value.width && 0.0 <= b.y < bounds.value.height
  }

  /** `x % width`, `y % height` when the world has boundaries: the position is brought into the
      torus and nothing else about the body changes. */
  function Wrap(b: Body, bounds: Option<Bounds>): (r: Body)
    ensures InBounds(r, bounds)
    ensures r == b.(x := r.x, y := r.y)
  {
    if bounds.None? then b
    else
      var bs := bounds.value;
      FloorModRange(b.x, bs.width);
      FloorModRange(b.y, bs.height);
      b.(x := FloorMod(b.x, bs.width), y := FloorMod(b.y, bs.height))
  }

  /** A position already inside the torus is left where it is. */
  lemma WrapKeepsInside(b: Body, bounds: Option<Bounds>)
    requires InBounds(b, bounds)
    ensures Wrap(b, bounds) == b
  {
    if bounds.Some? {
      FloorModIdentity(b.x, bounds.value.width);
      FloorModIdentity(b.y, bounds.value.height);
    }
  }

  /** Wrapping twice is wrapping once. */
  lemma WrapIdempotent(b: Body, bounds: Option<Bounds>)
    ensures Wrap(Wrap(b, bounds), bounds) == Wrap(b, bounds)
  {
    WrapKeepsInside(Wrap(b, bounds), bounds);
  }

  /** A cap in Python truthiness: `None` and `0` mean unlimited. */
  predicate Truthy(cap: Option<int>) {
    cap.Some? && cap.value != 0
  }

  /** `_add_plant` / `_add_bot`: refused iff the cap is truthy and the list already holds that many. */
  predicate Admits(cap: Option<int>, count: nat) {
    !(Truthy(cap) && count >= cap.value)
  }

  /** `add_entity`: a negative energy is refused outright; a signal is always admitted; a plant or a
      bot is admitted iff its cap allows one more. An admitted entity is appended to its list,
      stamped with the current tick as birthday and wrapped into the boundaries. The pool is not
      touched and nothing else changes. */
  function AddEntity(w: World, id: nat): (r: (World, bool))
    requires id in w.store
    ensures var e := w.store[id];
      r.1 <==> e.body.energy >= 0.0 &&
               match KindOf(e)
               case SignalKind => true
               case PlantKind => Admits(w.plantLimit, |w.plants|)
               case BotKind => Admits(w.botLimit, |w.bots|)
    ensures !r.1 ==> r.0 == w
    ensures r.1 ==> var e := w.store[id];
      && r.0.store == w.store[id := Entity(Wrap(e.body, w.bounds).(birthday := Some(w.tick)), e.role)]
      && r.0.plants == (if KindOf(e) == PlantKind then w.plants + [id] else w.plants)
      && r.0.bots == (if KindOf(e) == BotKind then w.bots + [id] else w.bots)
      && r.0.signals == (if KindOf(e) == SignalKind then w.signals + [id] else w.signals)
      && r.0 == w.(store := r.0.store, plants := r.0.plants, bots := r.0.bots, signals := r.0.signals)
    ensures Settled(w, r.0)
  {
    var e := w.store[id];
    if e.body.energy < 0.0 then (w, false)
    else
      var admitted := match KindOf(e)
        case SignalKind => true
        case PlantKind => Admits(w.plantLimit, |w.plants|)
        case BotKind => Admits(w.botLimit, |w.bots|);
      if !admitted then (w, false)
      else
        var w1 := SetBody(w, id, Wrap(e.body, w.bounds).(birthday := Some(w.tick)));
        var w2: World := match KindOf(e)
          case SignalKind => w1.(signals := w1.signals + [id])
          case PlantKind => w1.(plants := w1.plants + [id])
          case BotKind => w1.(bots := w1.bots + [id]);
        (w2, true)
  }

  /** A cap of `n > 0` stops admissions at exactly `n` plants: the `n`-th is admitted, the next is
      refused. */
  lemma PlantCapIsExact(w: World, id: nat, n: int)
    requires id in w.store && KindOf(w.store[id]) == PlantKind && w.store[id].body.energy >= 0.0
    requires w.plantLimit == Some(n) && n > 0
    ensures |w.plants| < n ==> AddEntity(w, id).1
    ensures |w.plants| >= n ==> !AddEntity(w, id).1
  {
  }

  /** A cap of 0 or no cap never refuses an entity with non-negative energy. */
  lemma ZeroCapIsUnlimited(w: World, id: nat)
    requires id in w.store && w.store[id].body.energy >= 0.0
    requires w.plantLimit.None? || w.plantLimit == Some(0)
    requires w.botLimit.None? || w.botLimit == Some(0)
    ensures AddEntity(w, id).1
  {
  }

  /** `aggregate_entities`: the previous aggregate is forgotten and replaced by the plants, the bots
      and the signals, in that order. */
  function Aggregate(w: World): (r: World)
    ensures |r.allEntities| == |w.plants| + |w.bots| + |w.signals|
    ensures r.allEntities[..|w.plants|] == w.plants
    ensures r.allEntities[|w.plants|..|w.plants| + |w.bots|] == w.bots
    ensures r.allEntities[|w.plants| + |w.bots|..] == w.signals
    ensures forall id :: id in r.allEntities <==> id in w.plants || id in w.bots || id in w.signals
    ensures r == w.(allEntities := r.allEntities)
  {
    var all := w.plants + w.bots + w.signals;
    assert all[..|w.plants|] == w.plants;
    assert all[|w.plants|..|w.plants| + |w.bots|] == w.bots;
    assert all[|w.plants| + |w.bots|..] == w.signals;
    w.(allEntities := all)
  }

  /** The aggregate depends only on the lists, never on the list it replaces. */
  lemma AggregateForgets(w: World, stale: seq<nat>)
    requires IdsIn(stale, w.store.Keys)
    ensures Aggregate(w.(allEntities := stale)) == Aggregate(w)
  {
  }

  /** Where each aggregated entity stands now. */
  function Sightings(store: map<nat, Entity>, ids: seq<nat>): (r: seq<Sighting>)
    requires IdsIn(ids, store.Keys)
    ensures |r| == |ids|
    ensures forall i | 0 <= i < |ids| ::
              r[i] == Sighting(ids[i], store[ids[i]].body.x, store[ids[i]].body.y)
  {
    seq(|ids|, i requires 0 <= i < |ids| => Sighting(ids[i], store[ids[i]].body.x, store[ids[i]].body.y))
  }

  /** `build_kd_tree`: a non-empty aggregate is indexed by the current positions; with an empty
      aggregate the previous index, possibly stale, stays in place. */
  function BuildIndex(w: World): (r: World)
    ensures |w.allEntities| > 0 ==> r.index.Some? && |r.index.value| == |w.allEntities|
    ensures |w.allEntities| > 0 ==> forall i | 0 <= i < |w.allEntities| ::
              var id := w.allEntities[i];
              r.index.value[i] == Sighting(id, w.store[id].body.x, w.store[id].body.y)
    ensures |w.allEntities| == 0 ==> r == w
    ensures r == w.(index := r.index)
  {
    if |w.allEntities| > 0 then
      var idx := Sightings(w.store, w.allEntities);
      assert forall s | s in idx :: s.id in w.store.Keys by {
        forall s | s in idx ensures s.id in w.store.Keys {
          var i :| 0 <= i < |idx| && idx[i] == s;
        }
      }
      w.(index := Some(idx))
    else w
  }

  /** `give_energy_to_entity` on a stored entity. */
  function GiveTo(w: World, amount: real, id: nat): (r: (World, bool))
    requires id in w.store
    ensures var g := Ledger.Give(w.pool, amount, w.store[id].body);
      r.1 == g.ok && r.0 == SetBody(w, id, g.body).(pool := g.pool)
  {
    var g := Ledger.Give(w.pool, amount, w.store[id].body);
    (SetBody(w, id, g.body).(pool := g.pool), g.ok)
  }

  /** `drain_energy_from_entity` on a stored entity. */
  function DrainFrom(w: World, amount: real, id: nat): (r: (World, bool))
    requires id in w.store
    ensures var g := Ledger.Drain(w.pool, amount, w.store[id].body);
      r.1 == g.ok && r.0 == SetBody(w, id, g.body).(pool := g.pool)
  {
    var g := Ledger.Drain(w.pool, amount, w.store[id].body);
    (SetBody(w, id, g.body).(pool := g.pool), g.ok)
  }

  /** `transfer_energy_between_entities` between two stored entities, which may be the same object. */
  function TransferBetween(w: World, amount: real, donor: nat, recipient: nat): (r: (World, bool))
    requires donor in w.store && recipient in w.store
    ensures donor != recipient ==>
              var x := Ledger.Transfer(amount, w.store[donor].body, w.store[recipient].body);
              r.1 == x.ok && r.0 == SetBody(SetBody(w, donor, x.donor), recipient, x.recipient)
    ensures donor == recipient ==>
              var g := Ledger.TransferToSelf(amount, w.store[donor].body);
              r.1 == g.ok && r.0 == SetBody(w, donor, g.body)
    ensures r.0.pool == w.pool
  {
    if donor == recipient then
      var g := Ledger.TransferToSelf(amount, w.store[donor].body);
      (SetBody(w, donor, g.body), g.ok)
    else
      var x := Ledger.Transfer(amount, w.store[donor].body, w.store[recipient].body);
      (SetBody(SetBody(w, donor, x.donor), recipient, x.recipient), x.ok)
  }

  /** The energy held by the listed entities, in list order. */
  function Held(store: map<nat, Entity>, ids: seq<nat>): real
    requires IdsIn(ids, store.Keys)
  {
    if |ids| == 0 then 0.0 else store[ids[0]].body.energy + Held(store, ids[1..])
  }

  /** One coordinate of `get_unit_vector_to_point` before normalisation: a difference of more than
      half a side is taken the other way round the torus. */
  function WrapAxis(d: real, side: Extent): (r: real)
    ensures r == d || r == d - side || r == d + side
  {
    if d > side / 2.0 then d - side
    else if d < -(side / 2.0) then d + side
    else d
  }

  /** The displacement from `start` to `target`, wrapped when the world has boundaries. */
  function Displacement(bounds: Option<Bounds>, start: (real, real), target: (real, real)): (r: (real, real))
    ensures bounds.None? ==> r == (target.0 - start.0, target.1 - start.1)
    ensures bounds.Some? ==> r == (WrapAxis(target.0 - start.0, bounds.value.width),
                                   WrapAxis(target.1 - start.1, bounds.value.height))
  {
    var (dx, dy) := (target.0 - start.0, target.1 - start.1);
    if bounds.None? then (dx, dy)
    else (WrapAxis(dx, bounds.value.width), WrapAxis(dy, bounds.value.height))
  }

  /** For two coordinates inside the torus the wrapped difference lies within half a side. */
  lemma WrapAxisWithinHalf(a: real, b: real, side: Extent)
    requires 0.0 <= a < side && 0.0 <= b < side
    ensures -(side / 2.0) <= WrapAxis(b - a, side) <= side / 2.0
  {
  }

  /** The wrapped difference is the shortest way round: no other representative of the difference
      modulo the side is shorter. */
  lemma WrapAxisShortest(a: real, b: real, side: Extent, k: int)
    requires 0.0 <= a < side && 0.0 <= b < side
    ensures Abs(WrapAxis(b - a, side)) <= Abs(WrapAxis(b - a, side) + (k as real) * side)
  {
    var d := WrapAxis(b - a, side);
    var m := (k as real) * side;
    WrapAxisWithinHalf(a, b, side);
    WholeMultiple(k, side, m);
    if k >= 1 {
      assert d + m >= side / 2.0;
    } else if k <= -1 {
      assert d + m <= -(side / 2.0);
    }
  }

  /** A nonzero whole multiple of a positive length is at least that length away from 0. */
  lemma WholeMultiple(k: int, s: real, m: real)
    requires s > 0.0 && m == (k as real) * s
    ensures k >= 1 ==> m >= s
    ensures k <= -1 ==> m <= -s
  {
    if k >= 1 {
      NonNegativeProduct((k - 1) as real, s);
      assert (k as real) * s == ((k - 1) as real) * s + s;
    } else if k <= -1 {
      NonNegativeProduct((-k - 1) as real, s);
      assert (k as real) * s == -(((-k - 1) as real) * s) - s;
    }
  }

  lemma NonNegativeProduct(a: real, b: real)
    requires a >= 0.0 && b >= 0.0
    ensures a * b >= 0.0
  {
  }

  function Abs(x: real): real {
    if x < 0.0 then -x else x
  }

  /** A 10 by 10 world: from (5, 8) the point (5, 0) is two steps further along y, across the edge. */
  lemma DisplacementAcrossEdge()
    ensures Displacement(Some(Bounds(10.0, 10.0)), (5.0, 8.0), (5.0, 0.0)) == (0.0, 2.0)
  {
  }
}
